=== FILE: README.md ===
# prodash input handling and line redraw, in Dafny

This project models two deterministic cores of prodash, a Rust crate that draws progress dashboards in a terminal.

1. **The terminal dashboard's input and event loop** (`src/tui/engine.rs`). Key presses arrive from one of two terminal backends, termion or crossterm. Each backend's key type is converted into the dashboard's own `Key`. The termion input thread forwards the keys that convert. Then each event of the loop changes the draw state (scroll offsets, view toggles, window size, title, side bar), the interrupt mode (`Instantly` or `Deferred(pending)`), and the decision to stop. A redraw follows unless it is skipped. The redraw bookkeeping is modelled too: skipping frames when nothing changed, the tick counter, the column-width recompute period, and window-size precedence.
2. **The line renderer's redraw bookkeeping** (`src/line/draw.rs`). This covers the width in cells ("blocks") of a run of tokens, and how each line is padded so that it covers what the previous frame wrote there. It also covers the tokens of a progress line and its bar, including the animated bar for an unknown total. Message lines have their origins right-aligned. Finally, `all` keeps one record of written width per progress row, blanks rows no longer drawn, and moves the cursor back up.

Files:

- `bounded.dfy` has the `Bounded` module: `uint8`/`uint16`/`usize` as bounded naturals, saturating and truncating arithmetic, and blanks and decimal numerals. It also has the `Results` module: `Option` and `Result`.
- `keys.dfy` holds the backends' key types (`TermionEvents`, `CrosstermEvents`) and the dashboard's `Key` with both conversions (`Keys`).
- `key_input.dfy` holds the termion input thread's filter (`KeyInput`).
- `engine.dfy` holds the event loop (`Engine`).
- `line_format.dfy` holds block counts, line finishing, bars and `format_progress` (`LineFormat`).
- `line_draw.dfy` holds `messages`, the progress section, and `all` (`LineDraw`).

Output goes to the terminal. It is modelled as a list of events: `Write(text)`, `Newline`, `MoveUp(n)`. ANSI styling is dropped, so a token is its text. A token's width is taken to be its length, which is exact for ASCII. `u16` sums and `as u16` casts wrap modulo 2^16, as a release build does.

Both key conversions are partial (`TryFrom`) and hand back the unconverted value as the error.

## Model

| member | source | states |
|---|---|---|
| Keys.FromTermion | src/tui/engine.rs:118-140 | The conversion fails exactly on the termion variants it does not list. The error carries the original key unchanged. |
| Keys.TermionRoundTrip | src/tui/engine.rs:118-140 | Each listed termion variant maps to the same-named `Key` with its payload (`F(n)`, `Char(c)`, `Alt(c)`, `Ctrl(c)`). A termion key yields `k` only if it is that same-named key, so the mapping is a bijection. |
| Keys.FromCrossterm | src/tui/engine.rs:147-173 | The conversion fails exactly on a character code whose modifier set is not exactly SHIFT, CONTROL or ALT. This includes the empty set and any combination. The error is the original event unchanged. |
| Keys.CrosstermOnto | src/tui/engine.rs:149-172 | Every dashboard key is produced by some crossterm event. Shift+char gives `Char`, Alt+char gives `Alt`, Ctrl+char gives `Ctrl`. |
| Keys.CrosstermIgnoresModifiers | src/tui/engine.rs:149-166 | Every non-character code converts whatever the modifiers are. Enter becomes `Char('\n')` and Tab becomes `Char('\t')`. |
| Keys.BackendsAgree | src/tui/engine.rs:118-166 | For every non-character key, the termion and crossterm conversions give the same dashboard key. |
| Keys.PlainCharRejected | src/tui/engine.rs:167-172 | A character typed with no modifier is rejected by the crossterm conversion as written. |
| Keys.FromCrosstermCorrected | src/tui/engine.rs:167-172 | The corrected conversion reads an unmodified character as `Char(c)`. It fails only on a modifier set other than none, SHIFT, CONTROL or ALT. |
| Keys.CorrectedAgreesElsewhere | src/tui/engine.rs:167-172 | The corrected conversion differs from the written one only on unmodified characters. |
| KeyInput.Forwarded | src/tui/engine.rs:204-209 | The input thread never forwards more keys than it read. |
| KeyInput.ForwardKeys | src/tui/engine.rs:204-210 | The thread loop converts each key and forwards it on success. It skips a failed conversion and stops at the first read error. Its result equals the recursive description. |
| KeyInput.OriginsIncreasing | src/tui/engine.rs:204-208 | Forwarded keys come from strictly increasing read positions, all before the first read error. So keys are delivered in their original order, each once. |
| KeyInput.OriginsConvert | src/tui/engine.rs:204-207 | Each forwarded key is the successful conversion of the read it came from. |
| KeyInput.UnforwardedFailConversion | src/tui/engine.rs:205-206 | Every key read before the first error that is not forwarded is one whose conversion failed. Nothing convertible is dropped. |
| KeyInput.NothingLostWhenAllConvert | src/tui/engine.rs:204-208 | When every read succeeds and converts, one key is delivered per read, in order. |
| KeyInput.ForwardedAppend | src/tui/engine.rs:204-205 | Forwarding distributes over consecutive batches of reads. After a read error, later reads contribute nothing. |
| Engine.Step | src/tui/engine.rs:303-349 | A stopping event leaves the draw state unchanged. A skipped redraw happens only for a key press, and then both the state and the mode are unchanged. |
| Engine.StepStopsIff | src/tui/engine.rs:305-342 | The loop stops exactly on a quit key (Esc, `q`, Ctrl-c, Ctrl-[) in `Instantly` mode, or on a request for `Instantly` while the mode is `Deferred(true)`. |
| Engine.QuitKeyEffect | src/tui/engine.rs:306-313 | A quit key stops the loop in `Instantly` mode. In a deferred mode the loop continues and the mode becomes `Deferred(true)`. |
| Engine.SetInterruptModeEffect | src/tui/engine.rs:335-347 | Requesting `Instantly` stops the loop if an interrupt is pending and otherwise sets `Instantly`. Requesting `Deferred` keeps a pending flag and otherwise gives `Deferred(false)`. |
| Engine.OffsetKeyEffect | src/tui/engine.rs:316-327 | `j`/`d` move the task offset by +1/+10 and `k`/`u` by -1/-10. `J`/`D`/`K`/`U` do the same for the message offset. Results are clamped to 0..65535 and nothing else changes. |
| Engine.OffsetRoundTrip | src/tui/engine.rs:316-327 | Scrolling down and then up by the same amount restores the state, unless the first move hit the upper bound. |
| Engine.ToggleKeyEffect | src/tui/engine.rs:314-329 | Each of `` ` ``, `~`, `[` and `{` flips exactly its own view flag. |
| Engine.ToggleTwice | src/tui/engine.rs:314-329 | Pressing a toggle key twice restores the state. |
| Engine.UnboundKeySkipsRedraw | src/tui/engine.rs:305-330 | A key with no binding changes nothing and skips the redraw. A bound key never skips it. |
| Engine.ModeChangesOnlyByInterrupts | src/tui/engine.rs:305-347 | Only a mode request, or a quit key while in `Deferred(false)`, changes the interrupt mode. |
| Engine.PendingInterruptSticks | src/tui/engine.rs:306-347 | Once an interrupt is pending, it stays pending until the loop stops. |
| Engine.PlainQuitKeyUnderCrossterm | src/tui/engine.rs:167-172 | Under crossterm, a plain `q` is rejected by the written conversion. Through the corrected conversion, a plain `q` stops the loop in `Instantly` mode. |
| Engine.CheckRedraw | src/tui/engine.rs:350-365 | With redraw-only-on-change, a redraw is skipped exactly when both the remembered state and the remembered tree equal the current ones. The current state is always remembered. The tree is remembered only when the state was unchanged. |
| Engine.RedrawSettles | src/tui/engine.rs:350-365 | If the same state and tree repeat, the third check in a row skips the redraw, from any memory. |
| Engine.StoreTaskSizeEvery | src/tui/engine.rs:298 | The recompute period is at least 1. It is 1 when unset, and otherwise the configured value raised to 1. |
| Engine.RecomputePeriodic | src/tui/engine.rs:391-396 | The column width is recomputed at least once in any period-long run of frames. With no period configured, it is recomputed every frame. |
| Engine.WindowSize | src/tui/engine.rs:374-377 | A size set by an event wins over the configured size, which wins over the terminal's size. |
| Engine.OtherEventsEffect | src/tui/engine.rs:304-334 | A tick changes nothing. `SetWindowSize`, `SetTitle` and `SetInformation` each replace only their own field of the state. None of them stops the loop, skips the redraw, or changes the interrupt mode. |
| Engine.SetWindowSizeWins | src/tui/engine.rs:332 | After `SetWindowSize(b)`, frames use `b` whatever is configured or reported. |
| Engine.Iterate | src/tui/engine.rs:301-398 | One iteration stops as interrupted exactly when `Stops` holds. A frame is drawn exactly when the event did not stop the loop, the redraw check did not skip, and the loop is not stopping for empty progress; the empty-progress stop happens exactly in the last case. A drawn frame advances the tick by one and uses the precedence window size. It records the drawing's column width as the last one, and takes it over as the next one exactly when the recompute condition holds for the new tick. The tick also advances on the final attempt that stops for empty progress. Without a frame, the state is the event's new state, or the old one if the event stopped the loop. A drawn frame changes no other field of the event's new state. The next interrupt mode is the event's, and the next redraw memory is the one the redraw check leaves; an iteration stopped by its event keeps both as they were. |
| Engine.AfterStep | src/tui/engine.rs:350-398 | After an event that did not stop the loop: a frame is drawn exactly when the redraw check does not skip and the progress is not empty under stop-if-empty. A skipped or empty-progress iteration leaves the event's state as it is. A drawn frame records the column width and takes it over when the recompute condition holds for the new tick, and changes no other field of the state. The next redraw memory is the one the redraw check leaves, whether or not a frame is drawn. |
| Engine.TickCountsFrames | src/tui/engine.rs:366-372 | Over a run, the tick counts the frames drawn, plus one if the run stopped for empty progress. |
| Engine.InstantQuitStops | src/tui/engine.rs:306-308 | In `Instantly` mode with no mode requests arriving, a quit key anywhere in the run stops it. |
| Engine.DeferredNeverStops | src/tui/engine.rs:309-311 | In a deferred mode with no `Instantly` request and no stop on empty progress, no run stops. The mode stays deferred, and a pending interrupt stays pending. |
| LineFormat.BlockCountIsTotalWidth | src/line/draw.rs:158-160 | The block count is the total token width modulo 2^16. So it is the total width whenever that fits in `u16`. |
| LineFormat.NewlineWithOverdraw | src/line/draw.rs:138-156 | Returns the line's block count and ends the line exactly once. Before the newline it only writes text, and that text is blanks only. The blanks written make up exactly the excess of the previous width over the current one. |
| LineFormat.LineCoversPrevious | src/line/draw.rs:117-119 | A written line, tokens plus padding, is exactly as wide as the larger of the old and new widths. Its new record is its width. |
| LineFormat.Pattern | src/line/draw.rs:190-193 | The range-take pipeline yields `min(count, usize::MAX - start)` characters. |
| LineFormat.IndeterminateBodyShape | src/line/draw.rs:186-197 | Read in the reversed order, the unknown-total body cycles `CHARS[(step + i) % 6]`. |
| LineFormat.IndeterminateBodyScrolls | src/line/draw.rs:190-196 | Advancing the step by one shifts the unknown-total pattern one cell to the right. |
| LineFormat.FilledBlocks | src/line/draw.rs:176-177 | The filled part of a known-total bar never exceeds the bar. |
| LineFormat.DeterminateBody | src/line/draw.rs:176-184 | The known-total body (fill, `>`, blanks) is one cell wider than the blocks left for it. |
| LineFormat.DrawProgressBar | src/line/draw.rs:162-201 | The bar is " [" + body + "]". For a known total, the body is `=` for the filled fraction of the blocks left, then `>`, then blanks up to those blocks. For an unknown total, the body has one cell per available block (fewer only within that many of `usize::MAX`), and read from the right it cycles three `=` and three blanks from phase `step`. The bar fills exactly the available blocks when at least 4 are available for a known total, or at least 3 for an unknown one with `step + blocks <= usize::MAX`. |
| Bounded.DecimalDenotes | src/line/draw.rs:238-241 | The decimal numeral of the step and the total denotes the number and has no leading zero. |
| LineFormat.StepTextDenotes | src/line/draw.rs:238-241 | The step text starts with the numeral of the step. With a known total it continues with " / " and the numeral of the total, and nothing else; the numerals denote the two counts. |
| LineFormat.Header | src/line/draw.rs:231-245 | A progress line's header starts with exactly `level` blanks followed by the name. Without progress that is all. With progress, a blank and the step text follow, then a blank and the unit if there is one. |
| LineFormat.FormatProgress | src/line/draw.rs:221-257 | The line begins with its header. A bar is appended exactly when the entry has progress and the header's block count is below the column count, so the saturating remainder is positive. What follows the header is then the progress bar drawn in the blocks the header leaves. |
| LineFormat.FormatProgressIndents | src/line/draw.rs:231 | Every progress line starts with exactly `level` blanks, then the name. |
| LineFormat.FormatProgressFillsLine | src/line/draw.rs:247-250 | A progress line with room for its bar is exactly as wide as the terminal. |
| LineDraw.MessageTokens | src/line/draw.rs:51-68 | A message line is a blank, then the time and a blank when timestamps are on (an empty token otherwise), then the origin, a blank and the message. The origin token is left-padded with `max - width(origin)` blanks. It is exactly `max` wide, so origins are right-aligned. |
| LineDraw.AfterMessages | src/line/draw.rs:46-48 | Drawing the messages consumes one recorded row width per message from the front: the old records are the consumed ones followed by the ones left. The widest-origin record is the running maximum. It never decreases, it covers every origin drawn, and it is either the old record or the width of one of those origins. |
| LineDraw.RecordAfter | src/line/draw.rs:46 | After `k` messages, the next record popped is the `k`-th record from before the frame, or 0 once the records have run out. |
| LineDraw.Messages | src/line/draw.rs:38-78 | Writes exactly one line per message and leaves the renderer in the state `AfterMessages` describes. |
| LineDraw.MessageLine | src/line/draw.rs:69-77 | The shortcut (overdraw only when the previous row was wider) writes exactly the line that the general line writer with overdraw writes. |
| LineDraw.MessageLineAt | src/line/draw.rs:38-78 | The `k`-th message's line sits between the lines of the messages before and after it. Its origin is right-aligned to the widest origin among messages `0..=k` and the recorded maximum. It is written over the row recorded `k`-th before the frame (0 past the records), and padded so its width is the larger of that record and its own width. |
| LineDraw.MessagesSplit | src/line/draw.rs:38-78 | The messages from the `k`-th on are drawn from the state the first `k` leave. |
| LineDraw.AfterOneMore | src/line/draw.rs:46-48 | Drawing one more message grows the widest origin to cover it and consumes one more record. |
| LineDraw.MessageLineEnd | src/line/draw.rs:73-77 | When the previous row was no wider, ending a message line with or without overdraw is the same. |
| LineDraw.Drawable | src/line/draw.rs:101-105 | Every entry drawn has its level in the range, and no more entries are drawn than the tree holds. |
| LineDraw.DrawableOne | src/line/draw.rs:110-114 | A single entry is drawn exactly when its level is in the range. |
| LineDraw.DrawableAppend | src/line/draw.rs:101-114 | Filtering a concatenation is the concatenation of the filtered parts. So the drawn entries keep tree order, and `lines_to_be_drawn` counts exactly the entries the drawing loop visits. |
| LineDraw.DrawableKeepsInRange | src/line/draw.rs:101-105 | Every tree entry whose level is in the range is drawn, so the filter drops exactly the out-of-range levels. |
| LineDraw.NoFilterDrawsAll | src/line/draw.rs:97-100 | With no level filter the range is `0..=255`, so every entry is drawn. |
| LineDraw.DrawLines | src/line/draw.rs:110-120 | Each drawn row's record becomes the block count of its formatted line. Rows past the drawn ones keep their records, and one line end is written per drawn row. |
| LineDraw.DrawLinesRowAt | src/line/draw.rs:110-120 | The `k`-th row written is the `k`-th entry's formatted line over the `k`-th record. It sits between the rows of the entries before and after it, and it is padded so its width is the larger of that record and the line's width. |
| LineDraw.RowsOutAt | src/line/draw.rs:110-120 | The rows written split at any row into the rows before it, that row's line over its record, and the rows after it. |
| LineDraw.BlankLines | src/line/draw.rs:124-126 | Surplus rows are written with blanks only, one line each. |
| LineDraw.BlankLinesCoverRecords | src/line/draw.rs:124-125 | Each surplus row gets exactly as many blanks as were recorded for it. |
| LineDraw.ProgressLines | src/line/draw.rs:96-133 | Afterwards there is one record per drawn row, each the width written on it. The cursor moves up over exactly the rows written: the old record count if larger, otherwise the rows drawn. |
| LineDraw.SurplusRowsBlanked | src/line/draw.rs:123-129 | With more records than rows, the surplus rows are blanked in order after the drawn rows. Then the cursor moves up by the old record count. |
| LineDraw.RowsDrawnOverRecords | src/line/draw.rs:106-132 | When the records are no more than the rows, the progress section is the drawn rows over the records grown with zeros to one per row, then `MoveUp` by the number of rows. |
| LineDraw.All | src/line/draw.rs:82-135 | Fails exactly when the tree is empty and the renderer should not keep running. When progress is shown on a terminal, it keeps one record per drawn row. Line ends then number the messages plus the rows written after them: the records left after the messages or the drawn rows, whichever are more. The last event moves the cursor up over exactly those rows. Otherwise only the messages are written. |
| LineDraw.WithProgress | src/line/draw.rs:97-132 | A frame that shows progress keeps the messages' widest origin and one record per drawn row. Its line ends are the messages' plus the rows written after them: the records left or the drawn rows, whichever are more. It ends by moving the cursor up over exactly those rows. |
| LineDraw.AllWithoutProgress | src/line/draw.rs:89-97 | When progress is not shown on a terminal and the frame does not fail, `all` writes exactly the message lines and leaves the state `messages` leaves. |
| LineDraw.AllKeepsOneRecordPerRow | src/line/draw.rs:101-129 | After a frame that shows progress, whatever was recorded before, there is exactly one record per drawn row, each the width written on it. |

## Left out

- Terminal construction, raw mode and the alternate screen (`new_terminal`), `hide_cursor`, and flushing stdout are terminal I/O.
- The input thread, its channel, and `smol::block_on` are concurrency. A send that fails because the receiver is gone (and so drops the key) is not modelled. `KeyInput` describes what an open receiver sees.
- `src/tui/engine.rs` defines `key_input_stream` only for the termion feature and as an `unimplemented!` stub for builds with neither backend; the source has no crossterm input stream. The stub is left out. The crossterm conversion is modelled on its own.
- `stream::select_all`, the ticker, and `frames_per_second` → `Duration` (f32) are left out: timing and floating point. Events arrive as a finite sequence.
- The dashboard's `draw::all`, `pre_render`/`post_render`, `sorted_snapshot`, `copy_messages`, and `Root::deep_eq`/`deep_clone` are calls into code not in this model. Their effect on one iteration enters as an `Environment`: the tree value (compared with `==`), whether the snapshot is empty, the terminal size, and the column width the drawing records.
- The dashboard's `draw::all` takes the draw state mutably. The model assumes that recording the tree column width is its only write to that state. Any other write it makes, for example to the scroll offsets, is assumed away, so every other field carries unchanged into the next event and the next redraw check.
- Engine.Iterate: the `usize` tick counter is an unbounded natural; its wrap-around after 2^64 frames is not modelled.
- The information side-bar contents and the title are carried but never interpreted. `duration_per_frame` is dropped: it is constant over a run and only paces the ticker.
- LineFormat.FilledBlocks: computes the fill of a known-total bar exactly, as ⌊blocks·step/done_at⌋, and caps it at the bar (done_at = 0 or step ≥ done_at fills the bar). The source uses f32 arithmetic and, for fraction > 1, underflows a `u16` subtraction.
- `progress_style` (colour choice, with its 0.8 threshold), `Brush`, `Style` and `ANSIStrings` only style text and are dropped.
- `unicode_width` is replaced by string length, which is exact for ASCII text only.
- LineFormat.BlockCountIsTotalWidth: `u16` overflow follows the release build (wrap-around); a debug build's panic is not modelled.
- `crate::time::format_time_for_messages` is replaced by the message's already-formatted `time` text.
- `copy_new_messages` and its `MessageCopyState` are replaced by the list of new messages passed to `All`.
- The `message_origin_size` deque of the line renderer's state is never used by the drawing code and is not modelled.
- A write to the output that fails (`io::Error` from `write!`) is not modelled; output is an event list that cannot fail.
- `src/unit/human.rs` and `src/unit/duration.rs` are thin wrappers over the `human_format` and `compound_duration` crates (`f64` formatting, a fixed `" of "` separator) and are not modelled.

## Findings

| source | as written | input that shows it | evidently intended | confidence | as-written member | corrected member |
|---|---|---|---|---|---|---|
| src/tui/engine.rs:167-172 | A crossterm `Char(c)` converts only when its modifiers are exactly SHIFT, CONTROL or ALT. The empty modifier set falls through to `Err(value)`, so the key never becomes a `Key`. | `KeyEvent { code: Char('q'), modifiers: NONE }`: a plain `q`, which is how crossterm reports an unshifted letter | An unmodified character converts to `Key::Char(c)` like a shifted one, so the bindings `q`, `j`, `k`, `d`, `u`, `` ` ``, `[` work under crossterm | medium; not executed | Keys.PlainCharRejected | Keys.FromCrosstermCorrected |

=== FILE: bounded.dfy ===
/** Fixed-width unsigned integers of the Rust source, modelled as bounded naturals,
    with the saturating and truncating operations the renderers rely on, and the
    small text builders (runs of spaces, decimal numerals) they emit. */
module Bounded {

  const UINT8_LIMIT: int := 0x100
  const UINT16_LIMIT: int := 0x1_0000
  /** The source targets 64-bit platforms: `usize` is 64 bits wide. */
  const USIZE_LIMIT: int := 0x1_0000_0000_0000_0000

  type uint8 = x: int | 0 <= x < UINT8_LIMIT
  type uint16 = x: int | 0 <= x < UINT16_LIMIT
  type usize = x: int | 0 <= x < USIZE_LIMIT

  const UINT8_MAX: uint8 := 0xFF
  const UINT16_MAX: uint16 := 0xFFFF
  const USIZE_MAX: usize := 0xFFFF_FFFF_FFFF_FFFF

  /** `u16::saturating_add` */
  function SaturatingAdd16(a: uint16, b: uint16): (r: uint16)
    ensures a <= r
  {
    if a + b <= UINT16_MAX then a + b else UINT16_MAX
  }

  /** `u16::saturating_sub` */
  function SaturatingSub16(a: uint16, b: uint16): (r: uint16)
    ensures r <= a
  {
    if a >= b then a - b else 0
  }

  /** A cast `x as u16` of a non-negative value: keeps the low 16 bits. */
  function TruncateTo16(x: nat): (r: uint16)
    ensures x < UINT16_LIMIT ==> r == x
  {
    x % UINT16_LIMIT
  }

  function Min(a: int, b: int): int { if a <= b then a else b }
  function Max(a: int, b: int): int { if a >= b then a else b }

  /** `n` blanks: the empty string right-aligned in a field `n` cells wide. */
  function Spaces(n: nat): (s: string)
    ensures |s| == n
    ensures forall i :: 0 <= i < n ==> s[i] == ' '
  {
    seq(n, _ => ' ')
  }

  /** `n` copies of `c`: the empty string padded with `c` to `n` cells. */
  function Repeat(c: char, n: nat): (s: string)
    ensures |s| == n
    ensures forall i :: 0 <= i < n ==> s[i] == c
  {
    seq(n, _ => c)
  }

  function DigitChar(d: nat): (c: char)
    requires d < 10
    ensures '0' <= c <= '9'
  {
    ('0' as int + d) as char
  }

  /** The number a string of decimal digits denotes, most significant digit
      first. */
  function DigitsValue(s: string): nat
    requires forall i :: 0 <= i < |s| ==> '0' <= s[i] <= '9'
  {
    if |s| == 0 then 0 else 10 * DigitsValue(s[..|s| - 1]) + (s[|s| - 1] as int - '0' as int)
  }

  /** The decimal rendering of a number, most significant digit first. */
  function Decimal(n: nat): (s: string)
    ensures 1 <= |s|
    ensures forall i :: 0 <= i < |s| ==> '0' <= s[i] <= '9'
  {
    if n < 10 then [DigitChar(n)] else Decimal(n / 10) + [DigitChar(n % 10)]
  }

  /** The rendering denotes `n` and has no leading zero. */
  lemma {:induction false} DecimalDenotes(n: nat)
    ensures DigitsValue(Decimal(n)) == n
    ensures |Decimal(n)| > 1 ==> Decimal(n)[0] != '0'
  {
    var s := Decimal(n);
    if n < 10 {
      assert s[..0] == [];
    } else {
      DecimalDenotes(n / 10);
      assert s[..|s| - 1] == Decimal(n / 10);
    }
  }
}

/** Option and Result, the failure-carrying types of the Rust source. */
module Results {

  datatype Option<+T> = None | Some(value: T) {
    /** `Option::unwrap_or` */
    function UnwrapOr(default: T): T {
      match this
      case Some(v) => v
      case None => default
    }

    /** `Option::or` */
    function Or(other: Option<T>): Option<T> {
      if Some? then this else other
    }
  }

  datatype Result<+T, +E> = Ok(value: T) | Err(error: E)
}

=== FILE: engine.dfy ===
/** The event loop of the terminal dashboard (`render_with_input`): each event
    updates the draw state and the interrupt mode and decides whether the loop
    ends; a redraw then follows unless it is skipped. Drawing itself, the
    terminal, the ticker and the merging of event streams are not part of this
    model: what they contribute to one step arrives as an `Environment`. */
module Engine {
  import opened Bounded
  import opened Results
  import opened Keys
  import C = CrosstermEvents

  /** `tui::layout::Rect` */
  datatype Rect = Rect(x: uint16, y: uint16, width: uint16, height: uint16)

  /** A line of the information side bar. */
  datatype Line = Title(text: string) | Text(text: string)

  /** How the dashboard answers an interrupt request. */
  datatype Interrupt = Instantly | Deferred

  /** The interrupt mode the loop keeps; a deferred mode remembers whether an
      interrupt was requested meanwhile. */
  datatype InterruptDrawInfo = Instantly | Deferred(requested: bool)

  /** The part of the dashboard's draw state that events change, plus the
      column-width bookkeeping of redraws. */
  datatype DrawState = DrawState(
    title: string,
    taskOffset: uint16,
    messageOffset: uint16,
    hideMessages: bool,
    messagesFullscreen: bool,
    userProvidedWindowSize: Option<Rect>,
    information: seq<Line>,
    hideInfo: bool,
    maximizeInfo: bool,
    lastTreeColumnWidth: Option<uint16>,
    nextTreeColumnWidth: Option<uint16>)

  /** An event of the loop's merged input. */
  datatype Event =
    | Tick
    | Input(key: Key)
    | SetWindowSize(bound: Rect)
    | SetTitle(title: string)
    | SetInformation(info: seq<Line>)
    | SetInterruptMode(mode: Interrupt)

  /** The effect of one event: the new state and mode, whether the loop ends,
      and whether the redraw is skipped. */
  datatype Transition = Transition(state: DrawState, mode: InterruptDrawInfo, stop: bool, skipRedraw: bool)

  function Continue(state: DrawState, mode: InterruptDrawInfo): Transition
  {
    Transition(state, mode, false, false)
  }

  /** The handling of one key press. */
  function OnKey(s: DrawState, mode: InterruptDrawInfo, key: Key): Transition
  {
    match key
    case Esc | Char('q') | Ctrl('c') | Ctrl('[') =>
      (match mode
       case Instantly => Transition(s, mode, true, false)
       case Deferred(_) => Continue(s, InterruptDrawInfo.Deferred(true)))
    case Char('`') => Continue(s.(hideMessages := !s.hideMessages), mode)
    case Char('~') => Continue(s.(messagesFullscreen := !s.messagesFullscreen), mode)
    case Char('J') => Continue(s.(messageOffset := SaturatingAdd16(s.messageOffset, 1)), mode)
    case Char('D') => Continue(s.(messageOffset := SaturatingAdd16(s.messageOffset, 10)), mode)
    case Char('j') => Continue(s.(taskOffset := SaturatingAdd16(s.taskOffset, 1)), mode)
    case Char('d') => Continue(s.(taskOffset := SaturatingAdd16(s.taskOffset, 10)), mode)
    case Char('K') => Continue(s.(messageOffset := SaturatingSub16(s.messageOffset, 1)), mode)
    case Char('U') => Continue(s.(messageOffset := SaturatingSub16(s.messageOffset, 10)), mode)
    case Char('k') => Continue(s.(taskOffset := SaturatingSub16(s.taskOffset, 1)), mode)
    case Char('u') => Continue(s.(taskOffset := SaturatingSub16(s.taskOffset, 10)), mode)
    case Char('[') => Continue(s.(hideInfo := !s.hideInfo), mode)
    case Char('{') => Continue(s.(maximizeInfo := !s.maximizeInfo), mode)
    case _ => Transition(s, mode, false, true)
  }

  /** The handling of a request to change the interrupt mode. Switching to
      instant interrupts while one is pending ends the loop at once. */
  function OnSetInterruptMode(s: DrawState, mode: InterruptDrawInfo, requested: Interrupt): Transition
  {
    match requested
    case Instantly =>
      if mode == InterruptDrawInfo.Deferred(true) then Transition(s, mode, true, false)
      else Continue(s, InterruptDrawInfo.Instantly)
    case Deferred =>
      Continue(s, InterruptDrawInfo.Deferred(match mode
                                              case Deferred(interruptRequested) => interruptRequested
                                              case _ => false))
  }

  /** The per-event transition of the loop. */
  function Step(s: DrawState, mode: InterruptDrawInfo, event: Event): (t: Transition)
    ensures t.stop ==> t.state == s && !t.skipRedraw
    ensures t.skipRedraw ==> event.Input? && t.state == s && t.mode == mode
  {
    match event
    case Tick => Continue(s, mode)
    case Input(key) => OnKey(s, mode, key)
    case SetWindowSize(bound) => Continue(s.(userProvidedWindowSize := Some(bound)), mode)
    case SetTitle(title) => Continue(s.(title := title), mode)
    case SetInformation(info) => Continue(s.(information := info), mode)
    case SetInterruptMode(requested) => OnSetInterruptMode(s, mode, requested)
  }

  // ---------------------------------------------------------------------
  // Independent descriptions of the key bindings

  /** The keys that request an interrupt. */
  predicate IsQuitKey(k: Key)
  {
    k in {Key.Esc, Key.Char('q'), Key.Ctrl('c'), Key.Ctrl('[')}
  }

  datatype Offset = TaskOffset | MessageOffset

  /** The offset a character key scrolls and by how much. */
  function OffsetBinding(c: char): Option<(Offset, int)>
  {
    if c == 'j' then Some((TaskOffset, 1))
    else if c == 'd' then Some((TaskOffset, 10))
    else if c == 'k' then Some((TaskOffset, -1))
    else if c == 'u' then Some((TaskOffset, -10))
    else if c == 'J' then Some((MessageOffset, 1))
    else if c == 'D' then Some((MessageOffset, 10))
    else if c == 'K' then Some((MessageOffset, -1))
    else if c == 'U' then Some((MessageOffset, -10))
    else None
  }

  datatype Flag = HideMessages | MessagesFullscreen | HideInfo | MaximizeInfo

  /** The view flag a character key toggles. */
  function ToggleBinding(c: char): Option<Flag>
  {
    if c == '`' then Some(HideMessages)
    else if c == '~' then Some(MessagesFullscreen)
    else if c == '[' then Some(HideInfo)
    else if c == '{' then Some(MaximizeInfo)
    else None
  }

  predicate IsBound(k: Key)
  {
    IsQuitKey(k) || (k.Char? && (OffsetBinding(k.c).Some? || ToggleBinding(k.c).Some?))
  }

  function OffsetOf(s: DrawState, o: Offset): uint16
  {
    match o
    case TaskOffset => s.taskOffset
    case MessageOffset => s.messageOffset
  }

  function WithOffset(s: DrawState, o: Offset, v: uint16): DrawState
  {
    match o
    case TaskOffset => s.(taskOffset := v)
    case MessageOffset => s.(messageOffset := v)
  }

  function FlagOf(s: DrawState, f: Flag): bool
  {
    match f
    case HideMessages => s.hideMessages
    case MessagesFullscreen => s.messagesFullscreen
    case HideInfo => s.hideInfo
    case MaximizeInfo => s.maximizeInfo
  }

  function WithFlag(s: DrawState, f: Flag, v: bool): DrawState
  {
    match f
    case HideMessages => s.(hideMessages := v)
    case MessagesFullscreen => s.(messagesFullscreen := v)
    case HideInfo => s.(hideInfo := v)
    case MaximizeInfo => s.(maximizeInfo := v)
  }

  /** The value `x` clamped into the range of `u16`. */
  function Clamp16(x: int): uint16
  {
    if x < 0 then 0 else if x > UINT16_MAX then UINT16_MAX else x
  }

  /** The loop stops exactly on a quit key in instant mode, or on a request for
      instant mode while a deferred interrupt is pending. */
  predicate Stops(mode: InterruptDrawInfo, event: Event)
  {
    || (event.Input? && IsQuitKey(event.key) && mode == InterruptDrawInfo.Instantly)
    || (event == SetInterruptMode(Interrupt.Instantly) && mode == InterruptDrawInfo.Deferred(true))
  }

  // ---------------------------------------------------------------------
  // Properties of one step

  lemma StepStopsIff(s: DrawState, mode: InterruptDrawInfo, event: Event)
    ensures Step(s, mode, event).stop <==> Stops(mode, event)
  {
    if event.Input? {
      QuitKeyCases(event.key);
    }
  }

  lemma QuitKeyCases(k: Key)
    ensures IsQuitKey(k) <==> k == Key.Esc || k == Key.Char('q') || k == Key.Ctrl('c') || k == Key.Ctrl('[')
  {
  }

  /** A quit key ends the loop in instant mode; in a deferred mode the loop goes
      on, nothing is redrawn differently, and the interrupt becomes pending. */
  lemma QuitKeyEffect(s: DrawState, mode: InterruptDrawInfo, k: Key)
    requires IsQuitKey(k)
    ensures mode.Instantly? ==> Step(s, mode, Input(k)) == Transition(s, mode, true, false)
    ensures mode.Deferred? ==> Step(s, mode, Input(k)) == Continue(s, InterruptDrawInfo.Deferred(true))
  {
    QuitKeyCases(k);
  }

  /** Requesting instant mode stops the loop when an interrupt is pending and
      otherwise switches to instant mode; requesting deferred mode keeps a
      pending interrupt and otherwise starts with none pending. */
  lemma SetInterruptModeEffect(s: DrawState, mode: InterruptDrawInfo, requested: Interrupt)
    ensures var t := Step(s, mode, SetInterruptMode(requested));
            && t.state == s && !t.skipRedraw
            && (requested.Instantly? ==>
                  if mode == InterruptDrawInfo.Deferred(true) then t.stop && t.mode == mode
                  else !t.stop && t.mode.Instantly?)
            && (requested.Deferred? ==>
                  !t.stop && t.mode.Deferred? && (t.mode.requested <==> mode == InterruptDrawInfo.Deferred(true)))
  {
  }

  /** An offset key changes its own offset by its amount, clamped to the range
      of `u16`, and nothing else. */
  lemma OffsetKeyEffect(s: DrawState, mode: InterruptDrawInfo, c: char)
    requires OffsetBinding(c).Some?
    ensures var (o, delta) := OffsetBinding(c).value;
            Step(s, mode, Input(Key.Char(c))) == Continue(WithOffset(s, o, Clamp16(OffsetOf(s, o) + delta)), mode)
  {
  }

  /** Scrolling down and back up by the same amount restores the offset, unless
      the first move hit the top of the range. */
  lemma OffsetRoundTrip(s: DrawState, mode: InterruptDrawInfo, down: char, up: char)
    requires OffsetBinding(down).Some? && OffsetBinding(up).Some?
    requires OffsetBinding(down).value.0 == OffsetBinding(up).value.0
    requires OffsetBinding(down).value.1 == -OffsetBinding(up).value.1 > 0
    requires OffsetOf(s, OffsetBinding(down).value.0) + OffsetBinding(down).value.1 <= UINT16_MAX
    ensures Step(Step(s, mode, Input(Key.Char(down))).state, mode, Input(Key.Char(up))).state == s
  {
    OffsetKeyEffect(s, mode, down);
    var s1 := Step(s, mode, Input(Key.Char(down))).state;
    OffsetKeyEffect(s1, mode, up);
  }

  /** A toggle key flips its own flag and nothing else. */
  lemma ToggleKeyEffect(s: DrawState, mode: InterruptDrawInfo, c: char)
    requires ToggleBinding(c).Some?
    ensures var f := ToggleBinding(c).value;
            Step(s, mode, Input(Key.Char(c))) == Continue(WithFlag(s, f, !FlagOf(s, f)), mode)
  {
  }

  /** Pressing a toggle key twice restores the state. */
  lemma ToggleTwice(s: DrawState, mode: InterruptDrawInfo, c: char)
    requires ToggleBinding(c).Some?
    ensures Step(Step(s, mode, Input(Key.Char(c))).state, mode, Input(Key.Char(c))).state == s
  {
    var f := ToggleBinding(c).value;
    ToggleKeyEffect(s, mode, c);
    var s1 := Step(s, mode, Input(Key.Char(c))).state;
    assert s1 == WithFlag(s, f, !FlagOf(s, f));
    ToggleKeyEffect(s1, mode, c);
    FlipTwice(s, f);
  }

  lemma FlipTwice(s: DrawState, f: Flag)
    ensures var s1 := WithFlag(s, f, !FlagOf(s, f)); WithFlag(s1, f, !FlagOf(s1, f)) == s
  {
  }

  /** A key with no binding changes nothing and skips the redraw; a bound key
      never skips it. */
  lemma UnboundKeySkipsRedraw(s: DrawState, mode: InterruptDrawInfo, k: Key)
    ensures !IsBound(k) ==> Step(s, mode, Input(k)) == Transition(s, mode, false, true)
    ensures IsBound(k) ==> !Step(s, mode, Input(k)).skipRedraw
  {
    QuitKeyCases(k);
  }

  /** Only a quit key or an interrupt-mode request changes the mode. */
  lemma ModeChangesOnlyByInterrupts(s: DrawState, mode: InterruptDrawInfo, event: Event)
    requires Step(s, mode, event).mode != mode
    ensures event.SetInterruptMode? || (event.Input? && IsQuitKey(event.key) && mode == InterruptDrawInfo.Deferred(false))
  {
    if event.Input? {
      QuitKeyCases(event.key);
    }
  }

  /** A pending interrupt stays pending until the loop stops. */
  lemma PendingInterruptSticks(s: DrawState, mode: InterruptDrawInfo, event: Event)
    requires mode == InterruptDrawInfo.Deferred(true)
    ensures Step(s, mode, event).stop || Step(s, mode, event).mode == mode
  {
  }

  /** Under the crossterm backend a plain 'q' (no modifier held) never reaches
      the loop through the conversion as written; through the corrected
      conversion it ends the loop in instant mode, as the key binding intends. */
  lemma PlainQuitKeyUnderCrossterm(s: DrawState)
    ensures FromCrossterm(C.KeyEvent(C.Char('q'), C.NONE)).Err?
    ensures var k := FromCrosstermCorrected(C.KeyEvent(C.Char('q'), C.NONE));
            k.Ok? && Step(s, InterruptDrawInfo.Instantly, Input(k.value)).stop
  {
    var k := FromCrosstermCorrected(C.KeyEvent(C.Char('q'), C.NONE));
    StepStopsIff(s, InterruptDrawInfo.Instantly, Input(k.value));
  }

  // ---------------------------------------------------------------------
  // Redraw bookkeeping

  /** What the loop remembers to skip redraws when nothing changed: the state
      and the progress tree of the last compared frame. `R` stands for the
      progress tree, compared by deep equality and stored by deep copy. */
  datatype RedrawMemo<R> = RedrawMemo(previousState: Option<DrawState>, previousRoot: Option<R>)

  datatype RedrawCheck<R> = RedrawCheck(skip: bool, memo: RedrawMemo<R>)

  /** With `redraw_only_on_state_change` set, a redraw is skipped when neither
      the state nor the progress tree changed since they were last remembered. */
  function CheckRedraw<R(==)>(onlyOnStateChange: bool, skip: bool, state: DrawState,
                              memo: RedrawMemo<R>, progress: R): (r: RedrawCheck<R>)
    ensures !onlyOnStateChange || skip ==> r == RedrawCheck(skip, memo)
    ensures onlyOnStateChange && !skip ==>
              && r.memo.previousState == Some(state)
              && (r.skip <==> memo.previousState == Some(state) && memo.previousRoot == Some(progress))
              && (memo.previousState == Some(state) ==> r.memo.previousRoot == Some(progress))
              && (memo.previousState != Some(state) ==> r.memo.previousRoot == memo.previousRoot)
  {
    if !skip && onlyOnStateChange then
      var (newPreviousState, stateChanged) :=
        match memo.previousState
        case Some(prev) => if prev == state then (Some(prev), false) else (Some(state), true)
        case None => (Some(state), true);
      if !stateChanged then
        match memo.previousRoot
        case Some(prev) =>
          if prev == progress then RedrawCheck(true, RedrawMemo(newPreviousState, Some(prev)))
          else RedrawCheck(false, RedrawMemo(newPreviousState, Some(progress)))
        case None => RedrawCheck(false, RedrawMemo(newPreviousState, Some(progress)))
      else RedrawCheck(skip, RedrawMemo(newPreviousState, memo.previousRoot))
    else RedrawCheck(skip, memo)
  }

  /** Repeating the same state and progress settles: from any memory, the third
      check in a row skips the redraw. */
  lemma {:induction false} RedrawSettles<R>(state: DrawState, memo: RedrawMemo<R>, progress: R)
    ensures var first := CheckRedraw(true, false, state, memo, progress);
            var second := CheckRedraw(true, false, state, first.memo, progress);
            CheckRedraw(true, false, state, second.memo, progress).skip
  {
    var first := CheckRedraw(true, false, state, memo, progress);
    assert first.memo.previousState == Some(state);
    var second := CheckRedraw(true, false, state, first.memo, progress);
    assert second.memo == RedrawMemo(Some(state), Some(progress));
  }

  /** How many frames apart the tree column width is recomputed: the configured
      period, or 1 when none is configured, and never less than 1. */
  function StoreTaskSizeEvery(every: Option<usize>): (n: nat)
    ensures n >= 1
    ensures every.None? ==> n == 1
    ensures every.Some? ==> n == Max(every.value, 1)
  {
    var v := every.UnwrapOr(1);
    if v >= 1 then v else 1
  }

  /** Whether the tree column width is taken over after the frame numbered `tick`. */
  predicate RecomputeColumnWidth(tick: nat, every: nat, last: Option<uint16>)
    requires every >= 1
  {
    tick == 1 || tick % every == 0 || last.UnwrapOr(0) == 0
  }

  /** The first frame number at or after `tick` that is a multiple of `n`. */
  function NextMultiple(tick: nat, n: nat): (t: nat)
    requires n >= 1
    ensures tick <= t < tick + n
  {
    tick + (n - tick % n) % n
  }

  lemma MultiplyMonotonic(n: int, x: int)
    requires n >= 1
    ensures x >= 1 ==> n * x >= n
    ensures x <= -1 ==> n * x <= -n
  {
  }

  lemma MultipleModulo(q: nat, n: nat)
    requires n >= 1
    ensures (q * n) % n == 0
  {
    var t := q * n;
    var d, m := t / n, t % n;
    assert t == d * n + m;
    assert (q - d) * n == m by {
      assert (q - d) * n == q * n - d * n;
    }
    MultiplyMonotonic(n, q - d);
  }

  lemma NextMultipleDivisible(tick: nat, n: nat)
    requires n >= 1
    ensures NextMultiple(tick, n) % n == 0
  {
    var q, r := tick / n, tick % n;
    assert tick == q * n + r;
    if r == 0 {
      assert NextMultiple(tick, n) == tick;
    } else {
      assert (n - r) % n == n - r;
      assert NextMultiple(tick, n) == (q + 1) * n;
      MultipleModulo(q + 1, n);
    }
  }

  /** The column width is recomputed at least once in any `every` consecutive
      frames; with no period configured, every frame recomputes. */
  lemma RecomputePeriodic(tick: nat, every: Option<usize>, last: Option<uint16>)
    ensures var n := StoreTaskSizeEvery(every);
            RecomputeColumnWidth(NextMultiple(tick, n), n, last)
    ensures every.None? ==> RecomputeColumnWidth(tick, StoreTaskSizeEvery(every), last)
  {
    NextMultipleDivisible(tick, StoreTaskSizeEvery(every));
  }

  /** The window size a frame is drawn with: a size set by an event wins over
      the configured one, which wins over the terminal's. */
  function WindowSize(userProvided: Option<Rect>, configured: Option<Rect>, terminal: Rect): (r: Rect)
    ensures userProvided.Some? ==> r == userProvided.value
    ensures userProvided.None? && configured.Some? ==> r == configured.value
    ensures userProvided.None? && configured.None? ==> r == terminal
  {
    userProvided.Or(configured).UnwrapOr(terminal)
  }

  /** After a `SetWindowSize` event every later frame uses that size, whatever
      was configured and whatever the terminal reports. */
  lemma SetWindowSizeWins(s: DrawState, mode: InterruptDrawInfo, bound: Rect, configured: Option<Rect>, terminal: Rect)
    ensures var t := Step(s, mode, SetWindowSize(bound));
            !t.stop && WindowSize(t.state.userProvidedWindowSize, configured, terminal) == bound
  {
  }

  /** The events that are not keys or mode requests never stop the loop, never
      skip the redraw, keep the interrupt mode, and change nothing but their
      own field: a tick changes nothing, and a size, title or information
      replaces just that part of the state. */
  lemma OtherEventsEffect(s: DrawState, mode: InterruptDrawInfo, bound: Rect, title: string, info: seq<Line>)
    ensures Step(s, mode, Tick) == Transition(s, mode, false, false)
    ensures Step(s, mode, SetWindowSize(bound)) == Transition(s.(userProvidedWindowSize := Some(bound)), mode, false, false)
    ensures Step(s, mode, SetTitle(title)) == Transition(s.(title := title), mode, false, false)
    ensures Step(s, mode, SetInformation(info)) == Transition(s.(information := info), mode, false, false)
  {
  }

  // ---------------------------------------------------------------------
  // One full iteration of the loop, and runs of events

  /** The options of the loop that affect its control flow. The title sets
      the initial state; the frame rate only paces the ticker. */
  datatype TuiOptions = TuiOptions(
    windowSize: Option<Rect>,
    recomputeColumnWidthEveryNthFrame: Option<usize>,
    redrawOnlyOnStateChange: bool,
    stopIfEmptyProgress: bool)

  /** What the world contributes to one iteration: the progress tree (`R`),
      whether its snapshot has no entries, the size the terminal reports, and
      the tree column width the drawing of the frame records. */
  datatype Environment<R> = Environment(progress: R, noEntries: bool, terminalWindowSize: Rect,
                                        drawnTreeColumnWidth: Option<uint16>)

  datatype Loop<R> = Loop(state: DrawState, mode: InterruptDrawInfo, tick: nat, memo: RedrawMemo<R>)

  datatype StopReason = Interrupted | ProgressEmpty

  /** The result of one iteration: the new loop variables, why the loop
      stopped if it did, and the window size of the frame if one was drawn. */
  datatype Iteration<R> = Iteration(loop: Loop<R>, stop: Option<StopReason>, drawnWith: Option<Rect>)

  function Iterate<R(==)>(opts: TuiOptions, l: Loop<R>, event: Event, env: Environment<R>): (r: Iteration<R>)
    ensures r.stop == Some(Interrupted) <==> Stops(l.mode, event)
    ensures r.drawnWith.Some? ==> r.stop.None? && r.loop.tick == l.tick + 1
    ensures r.drawnWith.Some? ==>
              r.drawnWith.value == WindowSize(r.loop.state.userProvidedWindowSize, opts.windowSize, env.terminalWindowSize)
    ensures r.drawnWith.None? ==> r.loop.tick == l.tick + (if r.stop == Some(ProgressEmpty) then 1 else 0)
    ensures var t := Step(l.state, l.mode, event);
            var check := CheckRedraw(opts.redrawOnlyOnStateChange, t.skipRedraw, t.state, l.memo, env.progress);
            && (r.drawnWith.Some? <==> !t.stop && !check.skip && !(opts.stopIfEmptyProgress && env.noEntries))
            && (r.stop == Some(ProgressEmpty) <==> !t.stop && !check.skip && opts.stopIfEmptyProgress && env.noEntries)
            && r.loop.mode == (if t.stop then l.mode else t.mode)
            && r.loop.memo == (if t.stop then l.memo else check.memo)
    ensures r.drawnWith.Some? ==>
              var every := StoreTaskSizeEvery(opts.recomputeColumnWidthEveryNthFrame);
              && r.loop.state.lastTreeColumnWidth == env.drawnTreeColumnWidth
              && r.loop.state.nextTreeColumnWidth ==
                   if RecomputeColumnWidth(r.loop.tick, every, env.drawnTreeColumnWidth)
                   then env.drawnTreeColumnWidth
                   else Step(l.state, l.mode, event).state.nextTreeColumnWidth
    ensures r.drawnWith.Some? ==>
              var t := Step(l.state, l.mode, event);
              r.loop.state.(lastTreeColumnWidth := t.state.lastTreeColumnWidth,
                            nextTreeColumnWidth := t.state.nextTreeColumnWidth) == t.state
    ensures r.drawnWith.None? ==>
              r.loop.state == if r.stop == Some(Interrupted) then l.state else Step(l.state, l.mode, event).state
  {
    var t := Step(l.state, l.mode, event);
    StepStopsIff(l.state, l.mode, event);
    if t.stop then Iteration(l, Some(Interrupted), None)
    else AfterStep(opts, l, t, env)
  }

  /** The part of an iteration after an event that did not stop the loop: the
      redraw check, the frame counter, the stop on empty progress, and the
      drawing with its column-width bookkeeping. */
  function AfterStep<R(==)>(opts: TuiOptions, l: Loop<R>, t: Transition, env: Environment<R>): (r: Iteration<R>)
    requires !t.stop
    ensures r.stop != Some(Interrupted) && r.loop.mode == t.mode
    ensures r.drawnWith.Some? ==> r.stop.None? && r.loop.tick == l.tick + 1
    ensures r.drawnWith.Some? ==>
              r.drawnWith.value == WindowSize(r.loop.state.userProvidedWindowSize, opts.windowSize, env.terminalWindowSize)
    ensures r.drawnWith.None? ==> r.loop.tick == l.tick + (if r.stop == Some(ProgressEmpty) then 1 else 0)
    ensures var check := CheckRedraw(opts.redrawOnlyOnStateChange, t.skipRedraw, t.state, l.memo, env.progress);
            && (r.drawnWith.Some? <==> !check.skip && !(opts.stopIfEmptyProgress && env.noEntries))
            && (r.stop == Some(ProgressEmpty) <==> !check.skip && opts.stopIfEmptyProgress && env.noEntries)
            && r.loop.memo == check.memo
    ensures r.drawnWith.Some? ==>
              var every := StoreTaskSizeEvery(opts.recomputeColumnWidthEveryNthFrame);
              && r.loop.state.lastTreeColumnWidth == env.drawnTreeColumnWidth
              && r.loop.state.nextTreeColumnWidth ==
                   if RecomputeColumnWidth(r.loop.tick, every, env.drawnTreeColumnWidth)
                   then env.drawnTreeColumnWidth
                   else t.state.nextTreeColumnWidth
    ensures r.drawnWith.Some? ==>
              r.loop.state.(lastTreeColumnWidth := t.state.lastTreeColumnWidth,
                            nextTreeColumnWidth := t.state.nextTreeColumnWidth) == t.state
    ensures r.drawnWith.None? ==> r.loop.state == t.state
  {
    var check := CheckRedraw(opts.redrawOnlyOnStateChange, t.skipRedraw, t.state, l.memo, env.progress);
    var undrawn := Loop(t.state, t.mode, l.tick, check.memo);
    if check.skip then Iteration(undrawn, None, None)
    else
      var tick := l.tick + 1;
      if opts.stopIfEmptyProgress && env.noEntries then Iteration(undrawn.(tick := tick), Some(ProgressEmpty), None)
      else
        var size := WindowSize(t.state.userProvidedWindowSize, opts.windowSize, env.terminalWindowSize);
        var drawn := t.state.(lastTreeColumnWidth := env.drawnTreeColumnWidth);
        var every := StoreTaskSizeEvery(opts.recomputeColumnWidthEveryNthFrame);
        var state :=
          if RecomputeColumnWidth(tick, every, drawn.lastTreeColumnWidth)
          then drawn.(nextTreeColumnWidth := drawn.lastTreeColumnWidth)
          else drawn;
        Iteration(Loop(state, t.mode, tick, check.memo), None, Some(size))
  }

  datatype Arrival<R> = Arrival(event: Event, env: Environment<R>)

  datatype Run<R> = Run(loop: Loop<R>, stop: Option<StopReason>, frames: seq<Rect>)

  /** The loop over a finite prefix of the event stream, up to its end or the
      iteration that stops it. */
  function RunLoop<R(==)>(opts: TuiOptions, l: Loop<R>, arrivals: seq<Arrival<R>>): (r: Run<R>)
    decreases |arrivals|
  {
    if |arrivals| == 0 then Run(l, None, [])
    else
      var it := Iterate(opts, l, arrivals[0].event, arrivals[0].env);
      if it.stop.Some? then Run(it.loop, it.stop, [])
      else
        var rest := RunLoop(opts, it.loop, arrivals[1..]);
        var frame := if it.drawnWith.Some? then [it.drawnWith.value] else [];
        Run(rest.loop, rest.stop, frame + rest.frames)
  }

  /** The frame counter counts the frames drawn, plus the final redraw attempt
      that found the progress empty. */
  lemma {:induction false} TickCountsFrames<R>(opts: TuiOptions, l: Loop<R>, arrivals: seq<Arrival<R>>)
    ensures var r := RunLoop(opts, l, arrivals);
            r.loop.tick == l.tick + |r.frames| + (if r.stop == Some(ProgressEmpty) then 1 else 0)
    decreases |arrivals|
  {
    if |arrivals| > 0 {
      var it := Iterate(opts, l, arrivals[0].event, arrivals[0].env);
      if it.stop.None? {
        TickCountsFrames(opts, it.loop, arrivals[1..]);
      }
    }
  }

  predicate NoModeRequests<R>(arrivals: seq<Arrival<R>>)
  {
    forall i :: 0 <= i < |arrivals| ==> !arrivals[i].event.SetInterruptMode?
  }

  /** In instant mode, with no mode requests arriving, a quit key ends the run. */
  lemma {:induction false} InstantQuitStops<R>(opts: TuiOptions, l: Loop<R>, arrivals: seq<Arrival<R>>, i: nat)
    requires l.mode == InterruptDrawInfo.Instantly
    requires NoModeRequests(arrivals)
    requires i < |arrivals| && arrivals[i].event.Input? && IsQuitKey(arrivals[i].event.key)
    ensures RunLoop(opts, l, arrivals).stop.Some?
    decreases |arrivals|
  {
    var it := Iterate(opts, l, arrivals[0].event, arrivals[0].env);
    if it.stop.None? {
      assert !Stops(l.mode, arrivals[0].event);
      assert i > 0;
      if it.loop.mode != l.mode {
        ModeChangesOnlyByInterrupts(l.state, l.mode, arrivals[0].event);
      }
      assert NoModeRequests(arrivals[1..]) by {
        forall j | 0 <= j < |arrivals[1..]|
          ensures !arrivals[1..][j].event.SetInterruptMode?
        {
          assert arrivals[1..][j] == arrivals[j + 1];
        }
      }
      InstantQuitStops(opts, it.loop, arrivals[1..], i - 1);
    }
  }

  predicate NoInstantRequests<R>(arrivals: seq<Arrival<R>>)
  {
    forall i :: 0 <= i < |arrivals| ==> arrivals[i].event != SetInterruptMode(Interrupt.Instantly)
  }

  /** In a deferred mode, with no request for instant mode arriving and no stop
      on empty progress, nothing ends the run: quit keys only leave the
      interrupt pending. */
  lemma {:induction false} DeferredNeverStops<R>(opts: TuiOptions, l: Loop<R>, arrivals: seq<Arrival<R>>)
    requires l.mode.Deferred?
    requires NoInstantRequests(arrivals)
    requires !opts.stopIfEmptyProgress
    ensures RunLoop(opts, l, arrivals).stop.None?
    ensures RunLoop(opts, l, arrivals).loop.mode.Deferred?
    ensures l.mode.requested ==> RunLoop(opts, l, arrivals).loop.mode.requested
    decreases |arrivals|
  {
    if |arrivals| > 0 {
      var it := Iterate(opts, l, arrivals[0].event, arrivals[0].env);
      assert !Stops(l.mode, arrivals[0].event);
      assert it.loop.mode.Deferred? && (l.mode.requested ==> it.loop.mode.requested) by {
        var t := Step(l.state, l.mode, arrivals[0].event);
        assert it.loop.mode == t.mode;
        if arrivals[0].event.SetInterruptMode? {
          SetInterruptModeEffect(l.state, l.mode, arrivals[0].event.mode);
        } else if t.mode != l.mode {
          ModeChangesOnlyByInterrupts(l.state, l.mode, arrivals[0].event);
        }
      }
      assert NoInstantRequests(arrivals[1..]) by {
        forall j | 0 <= j < |arrivals[1..]|
          ensures arrivals[1..][j].event != SetInterruptMode(Interrupt.Instantly)
        {
          assert arrivals[1..][j] == arrivals[j + 1];
        }
      }
      DeferredNeverStops(opts, it.loop, arrivals[1..]);
    }
  }
}

=== FILE: key_input.dfy ===
/** The loop body of the termion input thread (`key_input_stream`): it reads
    keys from standard input, converts each, forwards the ones that convert in
    the order they were read, silently drops the ones that do not, and stops at
    the first read error. The thread, the channel and blocking on the send are
    concurrency and are not part of this model; the forwarded keys are the
    sequence an open receiver observes. */
module KeyInput {
  import opened Results
  import opened Keys
  import T = TermionEvents

  /** One item of `stdin().keys()`: a key, or an I/O error that ends the thread. */
  datatype Read = Pressed(key: T.Key) | ReadFailed

  /** The keys the thread forwards for a given run of reads. */
  function Forwarded(items: seq<Read>): (keys: seq<Key>)
    ensures |keys| <= |items|
  {
    if |items| == 0 then []
    else match items[0]
      case ReadFailed => []
      case Pressed(k) =>
        match FromTermion(k)
        case Ok(key) => [key] + Forwarded(items[1..])
        case Err(_) => Forwarded(items[1..])
  }

  /** The number of reads before the first failure (all of them if none fails). */
  function ReadsBeforeFailure(items: seq<Read>): (n: nat)
    ensures n <= |items|
    ensures forall i :: 0 <= i < n ==> items[i].Pressed?
    ensures n < |items| ==> items[n].ReadFailed?
  {
    if |items| == 0 || items[0].ReadFailed? then 0 else 1 + ReadsBeforeFailure(items[1..])
  }

  /** The positions of the reads the forwarded keys came from. */
  function Origins(items: seq<Read>): (origins: seq<nat>)
    ensures |origins| == |Forwarded(items)|
  {
    if |items| == 0 || items[0].ReadFailed? then []
    else if FromTermion(items[0].key).Ok? then [0] + Shift(Origins(items[1..]))
    else Shift(Origins(items[1..]))
  }

  function Shift(origins: seq<nat>): (r: seq<nat>)
    ensures |r| == |origins|
    ensures forall i :: 0 <= i < |r| ==> r[i] == origins[i] + 1
  {
    seq(|origins|, i requires 0 <= i < |origins| => origins[i] + 1)
  }

  /** Forwarded keys keep their order: they come from strictly increasing
      positions, all before the first failed read. */
  lemma {:induction false} OriginsIncreasing(items: seq<Read>)
    ensures forall i :: 0 <= i < |Origins(items)| ==> Origins(items)[i] < ReadsBeforeFailure(items)
    ensures forall i, j :: 0 <= i < j < |Origins(items)| ==> Origins(items)[i] < Origins(items)[j]
  {
    if |items| > 0 && items[0].Pressed? {
      OriginsIncreasing(items[1..]);
    }
  }

  /** `keys[i]` is the conversion of the read at `origins[i]`, for every `i`. */
  predicate ConvertsAt(items: seq<Read>, origins: seq<nat>, keys: seq<Key>)
  {
    |origins| == |keys| &&
    forall i :: 0 <= i < |origins| ==>
      origins[i] < |items| && items[origins[i]].Pressed? && FromTermion(items[origins[i]].key) == Ok(keys[i])
  }

  lemma ConvertsAtBehind(r: Read, tail: seq<Read>, origins: seq<nat>, keys: seq<Key>)
    requires ConvertsAt(tail, origins, keys)
    ensures ConvertsAt([r] + tail, Shift(origins), keys)
  {
    forall i | 0 <= i < |origins|
      ensures ([r] + tail)[Shift(origins)[i]] == tail[origins[i]]
    {
    }
  }

  lemma ConvertsAtFront(k: T.Key, key: Key, tail: seq<Read>, origins: seq<nat>, keys: seq<Key>)
    requires FromTermion(k) == Ok(key)
    requires ConvertsAt(tail, origins, keys)
    ensures ConvertsAt([Pressed(k)] + tail, [0] + Shift(origins), [key] + keys)
  {
    ConvertsAtBehind(Pressed(k), tail, origins, keys);
    var items, shifted := [Pressed(k)] + tail, Shift(origins);
    forall i | 0 < i < |origins| + 1
      ensures ([0] + shifted)[i] == shifted[i - 1] && ([key] + keys)[i] == keys[i - 1]
    {
    }
  }

  /** Each forwarded key is the conversion of the read it came from. */
  lemma {:induction false} OriginsConvert(items: seq<Read>)
    ensures forall i :: 0 <= i < |Origins(items)| ==>
              Origins(items)[i] < |items| && items[Origins(items)[i]].Pressed? &&
              FromTermion(items[Origins(items)[i]].key) == Ok(Forwarded(items)[i])
  {
    if |items| > 0 && items[0].Pressed? {
      var tail := items[1..];
      OriginsConvert(tail);
      assert ConvertsAt(tail, Origins(tail), Forwarded(tail));
      assert items == [items[0]] + tail;
      var converted := FromTermion(items[0].key);
      if converted.Ok? {
        ConvertsAtFront(items[0].key, converted.value, tail, Origins(tail), Forwarded(tail));
      } else {
        ConvertsAtBehind(items[0], tail, Origins(tail), Forwarded(tail));
      }
      assert ConvertsAt(items, Origins(items), Forwarded(items));
    }
  }

  /** Every key read before the first failure that is not forwarded is one
      whose conversion failed: nothing that converts is dropped. */
  lemma {:induction false} UnforwardedFailConversion(items: seq<Read>, p: nat)
    requires p < ReadsBeforeFailure(items)
    requires p !in Origins(items)
    ensures FromTermion(items[p].key).Err?
  {
    var tail := items[1..];
    if p > 0 {
      assert items[p] == tail[p - 1];
      UnforwardedFailConversion(tail, p - 1);
    }
  }

  /** When every key read converts and no read fails, nothing is lost: the
      receiver sees one key per read, in order. */
  lemma {:induction false} NothingLostWhenAllConvert(items: seq<Read>)
    requires forall i :: 0 <= i < |items| ==> items[i].Pressed? && !items[i].key.Other?
    ensures |Forwarded(items)| == |items|
    ensures forall i :: 0 <= i < |items| ==> FromTermion(items[i].key) == Ok(Forwarded(items)[i])
  {
    if |items| > 0 {
      NothingLostWhenAllConvert(items[1..]);
    }
  }

  /** Reading in two batches forwards what reading at once does; a failure in
      the first batch ends the thread, so the second contributes nothing. */
  lemma {:induction false} ForwardedAppend(a: seq<Read>, b: seq<Read>)
    ensures ReadsBeforeFailure(a) == |a| ==> Forwarded(a + b) == Forwarded(a) + Forwarded(b)
    ensures ReadsBeforeFailure(a) < |a| ==> Forwarded(a + b) == Forwarded(a)
  {
    if |a| > 0 {
      assert (a + b)[0] == a[0];
      assert (a + b)[1..] == a[1..] + b;
      ForwardedAppend(a[1..], b);
    } else {
      assert a + b == b;
    }
  }

  /** The thread's loop, one read at a time: convert, forward on success,
      skip on a failed conversion, return on a read error. */
  method ForwardKeys(items: seq<Read>) returns (keys: seq<Key>)
    ensures keys == Forwarded(items)
  {
    keys := [];
    var i := 0;
    while i < |items|
      invariant 0 <= i <= |items|
      invariant ReadsBeforeFailure(items[..i]) == i
      invariant keys == Forwarded(items[..i])
    {
      ForwardedAppend(items[..i], [items[i]]);
      assert items[..i + 1] == items[..i] + [items[i]];
      match items[i]
      case ReadFailed =>
        ForwardedAppend(items[..i + 1], items[i + 1..]);
        assert items[..i + 1] + items[i + 1..] == items;
        assert ReadsBeforeFailure(items[..i + 1]) == i by {
          ReadsBeforeFailureAppend(items[..i], [items[i]]);
        }
        return;
      case Pressed(k) =>
        var converted := FromTermion(k);
        if converted.Ok? {
          keys := keys + [converted.value];
        }
        ReadsBeforeFailureAppend(items[..i], [items[i]]);
      i := i + 1;
    }
    assert items[..i] == items;
  }

  lemma {:induction false} ReadsBeforeFailureAppend(a: seq<Read>, b: seq<Read>)
    requires ReadsBeforeFailure(a) == |a|
    ensures ReadsBeforeFailure(a + b) == |a| + ReadsBeforeFailure(b)
  {
    if |a| > 0 {
      assert (a + b)[1..] == a[1..] + b;
      ReadsBeforeFailureAppend(a[1..], b);
    } else {
      assert a + b == b;
    }
  }
}

=== FILE: keys.dfy ===
/** The key type of the termion backend (termion 1.5.5, `termion::event::Key`). */
module TermionEvents {
  import opened Bounded

  datatype Key =
    | Backspace | Left | Right | Up | Down | Home | End | PageUp | PageDown
    | BackTab | Delete | Insert
    | F(n: uint8)
    | Char(c: char)
    | Alt(c: char)
    | Ctrl(c: char)
    | Null
    | Esc
      /** Any variant the conversion does not list: termion's hidden
          non-exhaustive marker, or a variant a later termion adds. */
    | Other(variant: nat)
}

/** The key event of the crossterm backend: a key code plus the set of modifier
    flags held down (`crossterm::event::KeyEvent`, `KeyCode`, `KeyModifiers`). */
module CrosstermEvents {
  import opened Bounded

  datatype KeyCode =
    | Backspace | Enter | Left | Right | Up | Down | Home | End | PageUp | PageDown
    | Tab | BackTab | Delete | Insert
    | F(n: uint8)
    | Char(c: char)
    | Null
    | Esc

  /** One flag of the `KeyModifiers` bit set. */
  datatype Modifier = Shift | Control | Alt

  datatype KeyEvent = KeyEvent(code: KeyCode, modifiers: set<Modifier>)

  const NONE: set<Modifier> := {}
  const SHIFT: set<Modifier> := {Shift}
  const CONTROL: set<Modifier> := {Control}
  const ALT: set<Modifier> := {Alt}
}

/** The dashboard's own key type (`tui::input::Key`) and the two partial
    conversions into it from the backends' key types. A native key with no
    counterpart comes back unchanged as the error. */
module Keys {
  import opened Bounded
  import opened Results
  import T = TermionEvents
  import C = CrosstermEvents

  datatype Key =
    | Backspace | Left | Right | Up | Down | Home | End | PageUp | PageDown
    | BackTab | Delete | Insert
    | F(n: uint8)
    | Char(c: char)
    | Alt(c: char)
    | Ctrl(c: char)
    | Null
    | Esc

  /** `impl TryFrom<termion::event::Key> for Key` */
  function FromTermion(value: T.Key): (r: Result<Key, T.Key>)
    ensures r.Err? <==> value.Other?
    ensures r.Err? ==> r.error == value
  {
    match value
    case Backspace => Ok(Key.Backspace)
    case Left => Ok(Key.Left)
    case Right => Ok(Key.Right)
    case Up => Ok(Key.Up)
    case Down => Ok(Key.Down)
    case Home => Ok(Key.Home)
    case End => Ok(Key.End)
    case PageUp => Ok(Key.PageUp)
    case PageDown => Ok(Key.PageDown)
    case BackTab => Ok(Key.BackTab)
    case Delete => Ok(Key.Delete)
    case Insert => Ok(Key.Insert)
    case F(c) => Ok(Key.F(c))
    case Char(c) => Ok(Key.Char(c))
    case Alt(c) => Ok(Key.Alt(c))
    case Ctrl(c) => Ok(Key.Ctrl(c))
    case Null => Ok(Key.Null)
    case Esc => Ok(Key.Esc)
    case Other(_) => Err(value)
  }

  /** The termion key every dashboard key is named after: an independent,
      total description of the correspondence the conversion implements. */
  function ToTermion(k: Key): (t: T.Key)
    ensures !t.Other?
  {
    match k
    case Backspace => T.Backspace
    case Left => T.Left
    case Right => T.Right
    case Up => T.Up
    case Down => T.Down
    case Home => T.Home
    case End => T.End
    case PageUp => T.PageUp
    case PageDown => T.PageDown
    case BackTab => T.BackTab
    case Delete => T.Delete
    case Insert => T.Insert
    case F(n) => T.F(n)
    case Char(c) => T.Char(c)
    case Alt(c) => T.Alt(c)
    case Ctrl(c) => T.Ctrl(c)
    case Null => T.Null
    case Esc => T.Esc
  }

  /** Every dashboard key is reached from its same-named termion key, payload
      included, and a termion key converts to `k` only if it is that key: the
      termion conversion is a bijection between the listed variants and `Key`. */
  lemma TermionRoundTrip(k: Key, t: T.Key)
    ensures FromTermion(ToTermion(k)) == Ok(k)
    ensures FromTermion(t) == Ok(k) ==> t == ToTermion(k)
  {
    match k
    case F(_) =>
    case Char(_) =>
    case Alt(_) =>
    case Ctrl(_) =>
    case _ =>
  }

  /** `impl TryFrom<crossterm::event::KeyEvent> for Key`. Enter and Tab become
      the characters they type; a character key converts only when its modifier
      set is exactly one of SHIFT, CONTROL or ALT. */
  function FromCrossterm(value: C.KeyEvent): (r: Result<Key, C.KeyEvent>)
    ensures r.Err? <==> value.code.Char? && value.modifiers !in {C.SHIFT, C.CONTROL, C.ALT}
    ensures r.Err? ==> r.error == value
  {
    match value.code
    case Backspace => Ok(Key.Backspace)
    case Enter => Ok(Key.Char('\n'))
    case Left => Ok(Key.Left)
    case Right => Ok(Key.Right)
    case Up => Ok(Key.Up)
    case Down => Ok(Key.Down)
    case Home => Ok(Key.Home)
    case End => Ok(Key.End)
    case PageUp => Ok(Key.PageUp)
    case PageDown => Ok(Key.PageDown)
    case Tab => Ok(Key.Char('\t'))
    case BackTab => Ok(Key.BackTab)
    case Delete => Ok(Key.Delete)
    case Insert => Ok(Key.Insert)
    case F(k) => Ok(Key.F(k))
    case Null => Ok(Key.Null)
    case Esc => Ok(Key.Esc)
    case Char(c) =>
      if value.modifiers == C.SHIFT then Ok(Key.Char(c))
      else if value.modifiers == C.CONTROL then Ok(Key.Ctrl(c))
      else if value.modifiers == C.ALT then Ok(Key.Alt(c))
      else Err(value)
  }

  /** A crossterm key event that produces `k`: every dashboard key can be typed
      under crossterm. */
  function CrosstermSource(k: Key): C.KeyEvent
  {
    match k
    case Backspace => C.KeyEvent(C.Backspace, C.NONE)
    case Left => C.KeyEvent(C.Left, C.NONE)
    case Right => C.KeyEvent(C.Right, C.NONE)
    case Up => C.KeyEvent(C.Up, C.NONE)
    case Down => C.KeyEvent(C.Down, C.NONE)
    case Home => C.KeyEvent(C.Home, C.NONE)
    case End => C.KeyEvent(C.End, C.NONE)
    case PageUp => C.KeyEvent(C.PageUp, C.NONE)
    case PageDown => C.KeyEvent(C.PageDown, C.NONE)
    case BackTab => C.KeyEvent(C.BackTab, C.NONE)
    case Delete => C.KeyEvent(C.Delete, C.NONE)
    case Insert => C.KeyEvent(C.Insert, C.NONE)
    case F(n) => C.KeyEvent(C.F(n), C.NONE)
    case Char(c) => C.KeyEvent(C.Char(c), C.SHIFT)
    case Alt(c) => C.KeyEvent(C.Char(c), C.ALT)
    case Ctrl(c) => C.KeyEvent(C.Char(c), C.CONTROL)
    case Null => C.KeyEvent(C.Null, C.NONE)
    case Esc => C.KeyEvent(C.Esc, C.NONE)
  }

  /** The crossterm conversion is onto: each dashboard key has a source event. */
  lemma CrosstermOnto(k: Key)
    ensures FromCrossterm(CrosstermSource(k)) == Ok(k)
  {
    match k
    case Char(c) =>
      assert CrosstermSource(k).modifiers == C.SHIFT;
    case Alt(c) =>
      assert CrosstermSource(k).modifiers == C.ALT;
    case Ctrl(c) =>
      assert CrosstermSource(k).modifiers == C.CONTROL;
    case _ =>
  }

  /** For every code other than a character the modifiers play no part, and
      Enter and Tab arrive as the newline and tab characters. */
  lemma CrosstermIgnoresModifiers(code: C.KeyCode, m1: set<C.Modifier>, m2: set<C.Modifier>)
    requires !code.Char?
    ensures FromCrossterm(C.KeyEvent(code, m1)) == FromCrossterm(C.KeyEvent(code, m2))
    ensures FromCrossterm(C.KeyEvent(code, m1)).Ok?
    ensures code == C.Enter ==> FromCrossterm(C.KeyEvent(code, m1)) == Ok(Key.Char('\n'))
    ensures code == C.Tab ==> FromCrossterm(C.KeyEvent(code, m1)) == Ok(Key.Char('\t'))
  {
  }

  /** The termion and crossterm conversions agree on every key both can name:
      a non-character crossterm code and the same-named termion key give the
      same dashboard key. */
  lemma BackendsAgree(k: Key)
    requires !k.Char? && !k.Alt? && !k.Ctrl?
    ensures FromCrossterm(CrosstermSource(k)).Ok? && FromTermion(ToTermion(k)).Ok?
    ensures FromCrossterm(CrosstermSource(k)).value == FromTermion(ToTermion(k)).value
  {
    CrosstermOnto(k);
    TermionRoundTrip(k, ToTermion(k));
  }

  /** A character typed with no modifier at all is rejected by the crossterm
      conversion, as written. */
  lemma PlainCharRejected(c: char)
    ensures FromCrossterm(C.KeyEvent(C.Char(c), C.NONE)) == Err(C.KeyEvent(C.Char(c), C.NONE))
  {
  }

  /** The crossterm conversion with an unmodified character read as the
      character itself, like a shifted one. */
  function FromCrosstermCorrected(value: C.KeyEvent): (r: Result<Key, C.KeyEvent>)
    ensures r.Err? <==> value.code.Char? && value.modifiers !in {C.NONE, C.SHIFT, C.CONTROL, C.ALT}
    ensures r.Err? ==> r.error == value
    ensures value.code.Char? && value.modifiers == C.NONE ==> r == Ok(Key.Char(value.code.c))
  {
    if value.code.Char? && value.modifiers == C.NONE then Ok(Key.Char(value.code.c))
    else FromCrossterm(value)
  }

  /** The corrected conversion differs from the written one only on unmodified
      characters, where it yields the plain character. */
  lemma CorrectedAgreesElsewhere(value: C.KeyEvent)
    ensures !(value.code.Char? && value.modifiers == C.NONE) ==>
              FromCrosstermCorrected(value) == FromCrossterm(value)
    ensures FromCrossterm(value).Ok? ==> FromCrosstermCorrected(value) == FromCrossterm(value)
  {
  }
}

=== FILE: line_draw.dfy ===
/** The drawing half of the line renderer (`line::draw::all`): message lines,
    then the progress lines, each finished so that it covers what the previous
    frame left on it, then blank lines over rows no longer drawn and a cursor
    move back to the first progress row. The renderer remembers, per row, how
    many cells it wrote ("blocks per line"). Taking snapshots of the progress
    tree and copying new messages out of it are not part of this model: their
    results are the `tree` and `messages` inputs. */
module LineDraw {
  import opened Bounded
  import opened Results
  import opened LineFormat

  datatype MessageLevel = Info | Success | Failure

  /** A message of the tree; `time` is its timestamp as already formatted for
      display, and `level` only selects a colour. */
  datatype Message = Message(time: string, level: MessageLevel, origin: string, message: string)

  /** What the renderer keeps between frames: the widest message origin so far
      and the width of each row written last time. The widest origin is an
      unbounded natural: it is a string width, which never reaches `usize::MAX`. */
  datatype State = State(maxMessageOriginSize: nat, blocksPerLine: seq<uint16>)

  /** `line::draw::Options`; only the first of the terminal dimensions (the
      width) is read, and `colored` and `hide_cursor` affect styling alone. */
  datatype Options = Options(
    levelFilter: Option<(uint8, uint8)>,
    terminalDimensions: (uint16, uint16),
    keepRunningIfProgressIsEmpty: bool,
    outputIsTerminal: bool,
    colored: bool,
    timestamp: bool,
    hideCursor: bool)

  datatype Drawn = Drawn(out: seq<Out>, state: State)

  datatype DrawError = StopAsProgressIsEmpty

  // ---------------------------------------------------------------------
  // Messages

  /** The tokens of one message line, with its origin right-aligned to
      `maxOrigin` cells. */
  function MessageTokens(m: Message, timestamp: bool, maxOrigin: nat): (tokens: seq<Token>)
    requires |m.origin| <= maxOrigin
    ensures |tokens| >= 4
    ensures var origin := tokens[|tokens| - 3];
            && |origin| == maxOrigin
            && origin[maxOrigin - |m.origin|..] == m.origin
            && forall i :: 0 <= i < maxOrigin - |m.origin| ==> origin[i] == ' '
    ensures tokens[|tokens| - 1] == m.message
    ensures tokens[0] == " " && tokens[|tokens| - 2] == " "
    ensures tokens[1..|tokens| - 3] == if timestamp then [m.time, " "] else [""]
  {
    [" "] + (if timestamp then [m.time, " "] else [""]) +
    [Spaces(maxOrigin - |m.origin|) + m.origin, " ", m.message]
  }

  /** One message line: its tokens, then the line end, padded with blanks
      when the row held something wider before. */
  function MessageLine(m: Message, timestamp: bool, maxOrigin: nat, previous: uint16): (line: seq<Out>)
    requires |m.origin| <= maxOrigin
    ensures NewlineCount(line) == 1
    ensures line == WriteLine(MessageTokens(m, timestamp, maxOrigin), previous).out
  {
    var tokens := MessageTokens(m, timestamp, maxOrigin);
    var finish := if previous > BlockCount(tokens) then NewlineWithOverdraw(tokens, previous).out else [Newline];
    MeasureAppend([Write(Concat(tokens))], finish);
    assert [Newline][1..] == [];
    [Write(Concat(tokens))] + finish
  }

  /** What drawing one message does to the renderer's state: the first
      recorded row width is consumed, and the widest origin grows to cover this
      message's origin. */
  function Consume(state: State, m: Message): State
  {
    State(Max(state.maxMessageOriginSize, |m.origin|),
          if |state.blocksPerLine| > 0 then state.blocksPerLine[1..] else [])
  }

  /** The renderer's state after drawing `messages`: one record consumed per
      message from the front, and a widest-origin record that is the running
      maximum: it never shrinks, covers every origin drawn, and is either the
      old record or the width of one of those origins. */
  function AfterMessages(state: State, messages: seq<Message>): (s: State)
    ensures state.blocksPerLine == state.blocksPerLine[..Min(|messages|, |state.blocksPerLine|)] + s.blocksPerLine
    ensures s.maxMessageOriginSize >= state.maxMessageOriginSize
    ensures forall i :: 0 <= i < |messages| ==> |messages[i].origin| <= s.maxMessageOriginSize
    ensures || s.maxMessageOriginSize == state.maxMessageOriginSize
            || exists i :: 0 <= i < |messages| && |messages[i].origin| == s.maxMessageOriginSize
    decreases |messages|
  {
    if |messages| == 0 then state
    else
      var rest := AfterMessages(Consume(state, messages[0]), messages[1..]);
      assert state.blocksPerLine == state.blocksPerLine[..Min(|messages|, |state.blocksPerLine|)] + rest.blocksPerLine by {
        if |state.blocksPerLine| > 0 {
          ConsumedPrefix(state.blocksPerLine, Min(|messages| - 1, |state.blocksPerLine| - 1), rest.blocksPerLine);
        }
      }
      assert forall i :: 1 <= i < |messages| ==> messages[i] == messages[1..][i - 1];
      rest
  }

  /** Consuming one more record from the front of a non-empty list of
      records. */
  lemma ConsumedPrefix<T>(records: seq<T>, k: nat, rest: seq<T>)
    requires 0 < |records| && k <= |records| - 1
    requires records[1..] == records[1..][..k] + rest
    ensures records == records[..k + 1] + rest
  {
    assert records == [records[0]] + records[1..];
    assert records[..k + 1] == [records[0]] + records[1..][..k];
    AppendAssociative([records[0]], records[1..][..k], rest);
  }

  /** The first record left after `k` messages is the `k`-th record before
      them, or none when the records ran out. */
  lemma RecordAfter(state: State, messages: seq<Message>, k: nat)
    requires k <= |messages|
    ensures RecordOf(AfterMessages(state, messages[..k]).blocksPerLine, 0) == RecordOf(state.blocksPerLine, k)
  {
    var records := state.blocksPerLine;
    var rest := AfterMessages(state, messages[..k]).blocksPerLine;
    assert |messages[..k]| == k;
    if k < |records| {
      assert records == records[..k] + rest;
      assert records[k] == (records[..k] + rest)[k];
    }
  }

  /** `messages`: one line per message, each over the row whose width was
      recorded first; the state it leaves is `AfterMessages`. */
  function Messages(state: State, messages: seq<Message>, timestamp: bool): (r: Drawn)
    ensures r.state == AfterMessages(state, messages)
    ensures NewlineCount(r.out) == |messages|
    decreases |messages|
  {
    if |messages| == 0 then Drawn([], state)
    else
      var next := Consume(state, messages[0]);
      var previous := if |state.blocksPerLine| > 0 then state.blocksPerLine[0] else 0;
      var line := MessageLine(messages[0], timestamp, next.maxMessageOriginSize, previous);
      var rest := Messages(next, messages[1..], timestamp);
      MeasureAppend(line, rest.out);
      Drawn(line + rest.out, rest.state)
  }

  /** The record a row had before the frame; a row past the records had none,
      which counts as 0 cells. */
  function RecordOf(records: seq<uint16>, k: nat): uint16
  {
    if k < |records| then records[k] else 0
  }

  lemma {:induction false} AfterMessagesAppend(state: State, a: seq<Message>, b: seq<Message>)
    ensures AfterMessages(state, a + b) == AfterMessages(AfterMessages(state, a), b)
    decreases |a|
  {
    if |a| > 0 {
      assert (a + b)[0] == a[0] && (a + b)[1..] == a[1..] + b;
      AfterMessagesAppend(Consume(state, a[0]), a[1..], b);
    } else {
      assert a + b == b;
    }
  }

  lemma {:induction false} MessagesAppend(state: State, a: seq<Message>, b: seq<Message>, timestamp: bool)
    ensures Messages(state, a + b, timestamp).out ==
            Messages(state, a, timestamp).out + Messages(AfterMessages(state, a), b, timestamp).out
    decreases |a|
  {
    if |a| > 0 {
      var next := Consume(state, a[0]);
      var previous := if |state.blocksPerLine| > 0 then state.blocksPerLine[0] else 0;
      var line := MessageLine(a[0], timestamp, next.maxMessageOriginSize, previous);
      assert (a + b)[0] == a[0] && (a + b)[1..] == a[1..] + b;
      assert Messages(state, a + b, timestamp).out == line + Messages(next, a[1..] + b, timestamp).out;
      assert Messages(state, a, timestamp).out == line + Messages(next, a[1..], timestamp).out;
      assert AfterMessages(state, a) == AfterMessages(next, a[1..]);
      MessagesAppend(next, a[1..], b, timestamp);
      AppendAssociative(line, Messages(next, a[1..], timestamp).out, Messages(AfterMessages(state, a), b, timestamp).out);
    } else {
      assert a + b == b;
    }
  }

  lemma SplitSlices<T>(s: seq<T>, k: nat)
    requires k < |s|
    ensures s[..k + 1] == s[..k] + [s[k]] && s == s[..k] + s[k..]
    ensures s[k..][0] == s[k] && s[k..][1..] == s[k + 1..]
  {
  }

  /** Slicing after dropping the first element is slicing one further on. */
  lemma ShiftSlices<T>(s: seq<T>, k: nat)
    requires 0 < k < |s|
    ensures s[..k][0] == s[0] && s[..k][1..] == s[1..][..k - 1]
    ensures s[1..][k - 1] == s[k] && s[1..][k..] == s[k + 1..]
  {
  }

  lemma AppendAssociative<T>(a: seq<T>, b: seq<T>, c: seq<T>)
    ensures a + (b + c) == (a + b) + c
  {
  }

  /** The messages from the `k`-th on are drawn from the state the first `k`
      leave. */
  lemma MessagesSplit(state: State, messages: seq<Message>, timestamp: bool, k: nat)
    requires k < |messages|
    ensures Messages(state, messages, timestamp).out ==
            Messages(state, messages[..k], timestamp).out +
            Messages(AfterMessages(state, messages[..k]), messages[k..], timestamp).out
  {
    SplitSlices(messages, k);
    MessagesAppend(state, messages[..k], messages[k..], timestamp);
  }

  /** Drawing the `k`-th message grows the widest origin to cover it and
      consumes one more record. */
  lemma AfterOneMore(state: State, messages: seq<Message>, k: nat)
    requires k < |messages|
    ensures AfterMessages(state, messages[..k + 1]) == Consume(AfterMessages(state, messages[..k]), messages[k])
  {
    SplitSlices(messages, k);
    AfterMessagesAppend(state, messages[..k], [messages[k]]);
    AfterOne(AfterMessages(state, messages[..k]), messages[k]);
  }

  lemma AfterOne(state: State, m: Message)
    ensures AfterMessages(state, [m]) == Consume(state, m)
  {
    assert [m][0] == m && [m][1..] == [];
  }

  /** The first message line is written over the first recorded row. */
  lemma MessagesFirst(state: State, messages: seq<Message>, timestamp: bool)
    requires |messages| > 0
    ensures var next := Consume(state, messages[0]);
            Messages(state, messages, timestamp).out ==
            WriteLine(MessageTokens(messages[0], timestamp, next.maxMessageOriginSize), RecordOf(state.blocksPerLine, 0)).out +
            Messages(next, messages[1..], timestamp).out
  {
  }

  /** The `k`-th message line, wherever it falls in the output: the message's
      tokens with its origin right-aligned to the widest origin seen up to and
      including it, written over the row recorded `k`-th before the frame and
      padded to cover it. */
  lemma MessageLineAt(state: State, messages: seq<Message>, timestamp: bool, k: nat)
    requires k < |messages|
    ensures var widest := AfterMessages(state, messages[..k + 1]).maxMessageOriginSize;
            var tokens := MessageTokens(messages[k], timestamp, widest);
            var line := WriteLine(tokens, RecordOf(state.blocksPerLine, k)).out;
            && Messages(state, messages, timestamp).out ==
                 Messages(state, messages[..k], timestamp).out + line +
                 Messages(AfterMessages(state, messages[..k + 1]), messages[k + 1..], timestamp).out
            && (TotalWidth(tokens) < UINT16_LIMIT ==>
                  WrittenWidth(line) == Max(RecordOf(state.blocksPerLine, k), TotalWidth(tokens)))
  {
    var before := AfterMessages(state, messages[..k]);
    var after := Consume(before, messages[k]);
    MessagesSplit(state, messages, timestamp, k);
    AfterOneMore(state, messages, k);
    MessagesFirst(before, messages[k..], timestamp);
    SplitSlices(messages, k);
    RecordAfter(state, messages, k);
    var tokens := MessageTokens(messages[k], timestamp, after.maxMessageOriginSize);
    var line := WriteLine(tokens, RecordOf(state.blocksPerLine, k)).out;
    AppendAssociative(Messages(state, messages[..k], timestamp).out, line, Messages(after, messages[k + 1..], timestamp).out);
    if TotalWidth(tokens) < UINT16_LIMIT {
      LineCoversPrevious(tokens, RecordOf(state.blocksPerLine, k));
    }
  }

  /** Ending a message line with or without overdraw makes no difference
      when the previous row was no wider: the renderer's shortcut is sound. */
  lemma MessageLineEnd(tokens: seq<Token>, previous: uint16)
    requires previous <= BlockCount(tokens)
    ensures NewlineWithOverdraw(tokens, previous).out == [Newline]
  {
  }

  // ---------------------------------------------------------------------
  // Progress lines

  /** The level range drawn: the configured filter, or every level. */
  function LevelRange(filter: Option<(uint8, uint8)>): (uint8, uint8)
  {
    filter.UnwrapOr((0, UINT8_MAX))
  }

  predicate InRange(range: (uint8, uint8), level: uint8)
  {
    range.0 <= level <= range.1
  }

  /** The entries whose level is in range, in tree order. */
  function Drawable(tree: seq<Entry>, range: (uint8, uint8)): (entries: seq<Entry>)
    ensures |entries| <= |tree|
    ensures forall i :: 0 <= i < |entries| ==> InRange(range, entries[i].level)
  {
    if |tree| == 0 then []
    else (if InRange(range, tree[0].level) then [tree[0]] else []) + Drawable(tree[1..], range)
  }

  /** Nothing in range is filtered out: every entry whose level is in the
      range is drawn. */
  lemma {:induction false} DrawableKeepsInRange(tree: seq<Entry>, range: (uint8, uint8), i: nat)
    requires i < |tree| && InRange(range, tree[i].level)
    ensures tree[i] in Drawable(tree, range)
  {
    if i > 0 {
      DrawableKeepsInRange(tree[1..], range, i - 1);
    }
  }

  /** A single entry is drawn exactly when its level is in range. */
  lemma DrawableOne(e: Entry, range: (uint8, uint8))
    ensures Drawable([e], range) == if InRange(range, e.level) then [e] else []
  {
    assert [e][1..] == [];
  }

  /** Filtering distributes over concatenation: the drawn entries keep their
      tree order, and each entry is drawn at most once. */
  lemma {:induction false} DrawableAppend(a: seq<Entry>, b: seq<Entry>, range: (uint8, uint8))
    ensures Drawable(a + b, range) == Drawable(a, range) + Drawable(b, range)
    decreases |a|
  {
    if |a| == 0 {
      assert a + b == b;
    } else {
      assert (a + b)[0] == a[0];
      assert (a + b)[1..] == a[1..] + b;
      DrawableAppend(a[1..], b, range);
      var head: seq<Entry> := if InRange(range, a[0].level) then [a[0]] else [];
      AppendAssociative(head, Drawable(a[1..], range), Drawable(b, range));
    }
  }

  /** With no level filter nothing is filtered out. */
  lemma {:induction false} NoFilterDrawsAll(tree: seq<Entry>)
    ensures Drawable(tree, LevelRange(None)) == tree
  {
    if |tree| > 0 {
      NoFilterDrawsAll(tree[1..]);
      assert [tree[0]] + tree[1..] == tree;
    }
  }

  datatype Rows = Rows(out: seq<Out>, blocksPerLine: seq<uint16>)

  /** The formatted line of each entry, in order. */
  function FormatLines(entries: seq<Entry>, columnCount: uint16): (lines: seq<seq<Token>>)
    ensures |lines| == |entries|
    ensures forall i :: 0 <= i < |entries| ==> lines[i] == FormatProgress(entries[i], columnCount)
    decreases |entries|
  {
    if |entries| == 0 then []
    else
      var rest := FormatLines(entries[1..], columnCount);
      assert forall i :: 1 <= i < |entries| ==> entries[i] == entries[1..][i - 1];
      [FormatProgress(entries[0], columnCount)] + rest
  }

  /** The drawing loop: each entry is written on the row of its position and
      that row's record becomes the width written; rows past the entries keep
      their records. */
  function DrawLines(entries: seq<Entry>, records: seq<uint16>, columnCount: uint16): (r: Rows)
    requires |entries| <= |records|
    ensures |r.blocksPerLine| == |records|
    ensures forall i :: 0 <= i < |entries| ==> r.blocksPerLine[i] == BlockCount(FormatProgress(entries[i], columnCount))
    ensures r.blocksPerLine[|entries|..] == records[|entries|..]
    ensures NewlineCount(r.out) == |entries|
  {
    var lines := FormatLines(entries, columnCount);
    var blocksPerLine := RowsWidths(lines, records) + records[|entries|..];
    assert blocksPerLine[|entries|..] == records[|entries|..];
    Rows(RowsOut(lines, records), blocksPerLine)
  }

  /** The widths the drawing loop records, one per line. */
  function RowsWidths(lines: seq<seq<Token>>, records: seq<uint16>): (widths: seq<uint16>)
    requires |lines| <= |records|
    ensures |widths| == |lines|
    ensures forall i :: 0 <= i < |lines| ==> widths[i] == BlockCount(lines[i])
    decreases |lines|
  {
    if |lines| == 0 then []
    else
      var rest := RowsWidths(lines[1..], records[1..]);
      assert forall i :: 1 <= i < |lines| ==> lines[i] == lines[1..][i - 1];
      [WriteLine(lines[0], records[0]).blocks] + rest
  }

  /** The rows written by the drawing loop, each over the width recorded for it. */
  function RowsOut(lines: seq<seq<Token>>, records: seq<uint16>): (out: seq<Out>)
    requires |lines| <= |records|
    ensures NewlineCount(out) == |lines|
    decreases |lines|
  {
    if |lines| == 0 then []
    else
      var line := WriteLine(lines[0], records[0]);
      var rest := RowsOut(lines[1..], records[1..]);
      MeasureAppend(line.out, rest);
      line.out + rest
  }

  /** The `k`-th drawn row, wherever it falls in the output: the formatted line
      of the `k`-th entry, written over the row's recorded width and padded to
      cover it, after the rows of the entries before it and before those of
      the entries after it. */
  lemma DrawLinesRowAt(entries: seq<Entry>, records: seq<uint16>, columnCount: uint16, k: nat)
    requires |entries| <= |records| && k < |entries|
    ensures var lines := FormatLines(entries, columnCount);
            var tokens := FormatProgress(entries[k], columnCount);
            var line := WriteLine(tokens, records[k]).out;
            && DrawLines(entries, records, columnCount).out ==
                 RowsOut(lines[..k], records[..k]) + line + RowsOut(lines[k + 1..], records[k + 1..])
            && (TotalWidth(tokens) < UINT16_LIMIT ==> WrittenWidth(line) == Max(records[k], TotalWidth(tokens)))
  {
    var lines := FormatLines(entries, columnCount);
    RowsOutAt(lines, records, k);
    if TotalWidth(lines[k]) < UINT16_LIMIT {
      LineCoversPrevious(lines[k], records[k]);
    }
  }

  lemma {:induction false} RowsOutAt(lines: seq<seq<Token>>, records: seq<uint16>, k: nat)
    requires |lines| <= |records| && k < |lines|
    ensures RowsOut(lines, records) ==
            RowsOut(lines[..k], records[..k]) + WriteLine(lines[k], records[k]).out + RowsOut(lines[k + 1..], records[k + 1..])
    decreases k
  {
    var first := WriteLine(lines[0], records[0]).out;
    var line := WriteLine(lines[k], records[k]).out;
    var rest := RowsOut(lines[k + 1..], records[k + 1..]);
    if k == 0 {
      assert lines[..0] == [] && lines[1..] == lines[k + 1..] && records[1..] == records[k + 1..];
      assert RowsOut(lines, records) == first + rest;
      assert RowsOut(lines[..k], records[..k]) == [];
    } else {
      RowsOutAt(lines[1..], records[1..], k - 1);
      ShiftSlices(lines, k);
      ShiftSlices(records, k);
      var before := RowsOut(lines[1..][..k - 1], records[1..][..k - 1]);
      assert RowsOut(lines[1..], records[1..]) == before + line + rest;
      assert RowsOut(lines, records) == first + (before + line + rest);
      assert RowsOut(lines[..k], records[..k]) == first + before;
      AppendAssociative(first, before + line, rest);
      AppendAssociative(first, before, line);
    }
  }

  /** One blank row of the recorded width per record. */
  function BlankLines(records: seq<uint16>): (out: seq<Out>)
    ensures IsBlank(out)
    ensures NewlineCount(out) == |records| && |out| == 2 * |records|
    decreases |records|
  {
    if |records| == 0 then []
    else
      var line := [Write(Spaces(records[0])), Newline];
      var rest := BlankLines(records[1..]);
      assert NewlineCount(line) == 1 by {
        assert line[1..] == [Newline] && line[1..][1..] == [];
        assert NewlineCount(line) == NewlineCount([Newline]);
      }
      MeasureAppend(line, rest);
      line + rest
  }

  /** The width each blank row covers is its record. */
  lemma {:induction false} BlankLinesCoverRecords(records: seq<uint16>, i: nat)
    requires i < |records|
    ensures BlankLines(records)[2 * i] == Write(Spaces(records[i]))
    ensures BlankLines(records)[2 * i + 1] == Newline
  {
    if i > 0 {
      BlankLinesCoverRecords(records[1..], i - 1);
      assert BlankLines(records) == [Write(Spaces(records[0])), Newline] + BlankLines(records[1..]);
    }
  }

  function Zeros(n: nat): (s: seq<uint16>)
    ensures |s| == n && forall i :: 0 <= i < n ==> s[i] == 0
  {
    seq(n, _ => 0)
  }

  /** The progress section of `all`: grow the records to the number of rows to
      draw, draw the rows, blank the rows no longer drawn, move the cursor back
      up over everything written, and keep one record per drawn row. */
  function ProgressLines(tree: seq<Entry>, records: seq<uint16>, config: Options): (r: Rows)
    ensures var rows := Drawable(tree, LevelRange(config.levelFilter));
            && |r.blocksPerLine| == |rows|
            && forall i :: 0 <= i < |rows| ==> r.blocksPerLine[i] == BlockCount(FormatProgress(rows[i], config.terminalDimensions.0))
    ensures var written := Max(|records|, |Drawable(tree, LevelRange(config.levelFilter))|);
            && NewlineCount(r.out) == written
            && |r.out| >= 1 && r.out[|r.out| - 1] == MoveUp(TruncateTo16(written))
  {
    var entries := Drawable(tree, LevelRange(config.levelFilter));
    var linesToBeDrawn := |entries|;
    var padded := if |records| < linesToBeDrawn then records + Zeros(linesToBeDrawn - |records|) else records;
    var drawn := DrawLines(entries, padded, config.terminalDimensions.0);
    var linesDrawn := linesToBeDrawn;
    if |drawn.blocksPerLine| > linesDrawn then
      var blanks := BlankLines(drawn.blocksPerLine[linesDrawn..]);
      var out := drawn.out + blanks + [MoveUp(TruncateTo16(|drawn.blocksPerLine|))];
      MeasureAppend(drawn.out, blanks);
      MeasureAppend(drawn.out + blanks, [MoveUp(TruncateTo16(|drawn.blocksPerLine|))]);
      Rows(out, drawn.blocksPerLine[..linesDrawn])
    else
      MeasureAppend(drawn.out, [MoveUp(TruncateTo16(linesDrawn))]);
      Rows(drawn.out + [MoveUp(TruncateTo16(linesDrawn))], drawn.blocksPerLine)
  }

  /** Rows no longer drawn are overwritten with exactly as many blanks as were
      recorded for them, in order, right after the drawn rows. */
  lemma SurplusRowsBlanked(tree: seq<Entry>, records: seq<uint16>, config: Options)
    requires |records| > |Drawable(tree, LevelRange(config.levelFilter))|
    ensures var n := |Drawable(tree, LevelRange(config.levelFilter))|;
            var drawn := DrawLines(Drawable(tree, LevelRange(config.levelFilter)), records, config.terminalDimensions.0);
            ProgressLines(tree, records, config).out == drawn.out + BlankLines(records[n..]) + [MoveUp(TruncateTo16(|records|))]
  {
  }

  /** When no row is surplus, the progress section is the drawn rows, each over
      its record or over nothing for a row new to this frame, followed by the
      cursor moving back up over them. */
  lemma RowsDrawnOverRecords(tree: seq<Entry>, records: seq<uint16>, config: Options)
    requires |records| <= |Drawable(tree, LevelRange(config.levelFilter))|
    ensures var rows := Drawable(tree, LevelRange(config.levelFilter));
            var padded := records + Zeros(|rows| - |records|);
            ProgressLines(tree, records, config).out ==
              DrawLines(rows, padded, config.terminalDimensions.0).out + [MoveUp(TruncateTo16(|rows|))]
  {
    var rows := Drawable(tree, LevelRange(config.levelFilter));
    var padded := records + Zeros(|rows| - |records|);
    assert padded == if |records| < |rows| then records + Zeros(|rows| - |records|) else records by {
      assert records + Zeros(0) == records;
    }
    assert |DrawLines(rows, padded, config.terminalDimensions.0).blocksPerLine| == |rows|;
  }

  /** `all`: fails, writing nothing, when the progress tree is empty and the
      renderer should not keep running; otherwise writes the messages and, when
      progress is shown on a terminal, the progress rows. */
  function All(tree: seq<Entry>, messages: seq<Message>, showProgress: bool, state: State, config: Options): (r: Result<Drawn, DrawError>)
    ensures r.Err? <==> !config.keepRunningIfProgressIsEmpty && |tree| == 0
    ensures r.Ok? ==> r.value.state.maxMessageOriginSize == AfterMessages(state, messages).maxMessageOriginSize
    ensures r.Ok? && showProgress && config.outputIsTerminal ==>
              var rows := Drawable(tree, LevelRange(config.levelFilter));
              var written := Max(|AfterMessages(state, messages).blocksPerLine|, |rows|);
              && |r.value.state.blocksPerLine| == |rows|
              && NewlineCount(r.value.out) == |messages| + written
              && EndsWith(r.value.out, MoveUp(TruncateTo16(written)))
    ensures r.Ok? && !(showProgress && config.outputIsTerminal) ==>
              r.value.state == AfterMessages(state, messages) && NewlineCount(r.value.out) == |messages|
  {
    if !config.keepRunningIfProgressIsEmpty && |tree| == 0 then Err(StopAsProgressIsEmpty)
    else
      var m := Messages(state, messages, config.timestamp);
      if showProgress && config.outputIsTerminal then Ok(WithProgress(tree, m, config))
      else Ok(m)
  }

  /** The last event of `out` is `e`. */
  predicate EndsWith(out: seq<Out>, e: Out)
  {
    |out| >= 1 && out[|out| - 1] == e
  }

  /** The frame of `all` that shows progress: the message lines `m` followed by
      the progress section drawn over the records the messages left. */
  function WithProgress(tree: seq<Entry>, m: Drawn, config: Options): (r: Drawn)
    ensures var rows := Drawable(tree, LevelRange(config.levelFilter));
            var written := Max(|m.state.blocksPerLine|, |rows|);
            && r.state.maxMessageOriginSize == m.state.maxMessageOriginSize
            && |r.state.blocksPerLine| == |rows|
            && NewlineCount(r.out) == NewlineCount(m.out) + written
            && EndsWith(r.out, MoveUp(TruncateTo16(written)))
  {
    var p := ProgressLines(tree, m.state.blocksPerLine, config);
    FollowedByRows(m.out, p.out, p.out[|p.out| - 1]);
    Drawn(m.out + p.out, m.state.(blocksPerLine := p.blocksPerLine))
  }

  /** Whatever was recorded before, after a frame that shows progress the
      renderer holds exactly one record per drawn row, each the width written
      on it. */
  lemma AllKeepsOneRecordPerRow(tree: seq<Entry>, messages: seq<Message>, state: State, config: Options)
    requires config.keepRunningIfProgressIsEmpty || |tree| > 0
    requires config.outputIsTerminal
    ensures var r := All(tree, messages, true, state, config);
            var rows := Drawable(tree, LevelRange(config.levelFilter));
            && r.Ok?
            && |r.value.state.blocksPerLine| == |rows|
            && forall i :: 0 <= i < |rows| ==>
                 r.value.state.blocksPerLine[i] == BlockCount(FormatProgress(rows[i], config.terminalDimensions.0))
  {
    AllShowingProgress(tree, messages, state, config);
  }

  /** A frame that shows progress is the messages followed by the progress rows. */
  lemma AllShowingProgress(tree: seq<Entry>, messages: seq<Message>, state: State, config: Options)
    requires config.keepRunningIfProgressIsEmpty || |tree| > 0
    requires config.outputIsTerminal
    ensures var m := Messages(state, messages, config.timestamp);
            var p := ProgressLines(tree, m.state.blocksPerLine, config);
            All(tree, messages, true, state, config) == Ok(Drawn(m.out + p.out, m.state.(blocksPerLine := p.blocksPerLine)))
  {
  }

  /** A frame that does not show progress writes the message lines and nothing
      else. */
  lemma AllWithoutProgress(tree: seq<Entry>, messages: seq<Message>, showProgress: bool, state: State, config: Options)
    requires config.keepRunningIfProgressIsEmpty || |tree| > 0
    requires !(showProgress && config.outputIsTerminal)
    ensures All(tree, messages, showProgress, state, config) == Ok(Messages(state, messages, config.timestamp))
  {
  }

  /** Output followed by rows that end with `last` ends with `last`, and its
      line ends add up. */
  lemma FollowedByRows(before: seq<Out>, rows: seq<Out>, last: Out)
    requires |rows| >= 1 && rows[|rows| - 1] == last
    ensures NewlineCount(before + rows) == NewlineCount(before) + NewlineCount(rows)
    ensures |before + rows| >= 1 && (before + rows)[|before + rows| - 1] == last
  {
    MeasureAppend(before, rows);
  }
}

=== FILE: line_format.dfy ===
/** The formatting half of the line renderer: how wide a run of tokens is, how a
    line is finished so that it covers what the previous frame wrote there, and
    the tokens of one progress line with its bar. Styling (colours, ANSI codes)
    is dropped, so a token is its text; its width in terminal cells is taken to
    be its length, which is exact for ASCII text. */
module LineFormat {
  import opened Bounded
  import opened Results

  type Token = string

  /** What the renderer sends to the terminal. */
  datatype Out = Write(text: string) | Newline | MoveUp(lines: uint16)

  function Width(t: Token): nat
  {
    |t|
  }

  function TotalWidth(tokens: seq<Token>): nat
  {
    if |tokens| == 0 then 0 else Width(tokens[0]) + TotalWidth(tokens[1..])
  }

  /** The text of a line: its tokens written one after the other. */
  function Concat(tokens: seq<Token>): (s: string)
    ensures |s| == TotalWidth(tokens)
  {
    if |tokens| == 0 then [] else tokens[0] + Concat(tokens[1..])
  }

  /** `block_count_sans_ansi_codes`: every token width cast to `u16` and summed
      in `u16`, wrapping on overflow. */
  function BlockCount(tokens: seq<Token>): uint16
  {
    if |tokens| == 0 then 0
    else (TruncateTo16(Width(tokens[0])) + BlockCount(tokens[1..])) % UINT16_LIMIT
  }

  /** The block count is the total width modulo 2^16, so it is the total width
      whenever that fits in 16 bits. */
  lemma {:induction false} BlockCountIsTotalWidth(tokens: seq<Token>)
    ensures BlockCount(tokens) == TotalWidth(tokens) % UINT16_LIMIT
    ensures TotalWidth(tokens) < UINT16_LIMIT ==> BlockCount(tokens) == TotalWidth(tokens)
  {
    if |tokens| > 0 {
      BlockCountIsTotalWidth(tokens[1..]);
      ModuloOfSum(Width(tokens[0]), TotalWidth(tokens[1..]));
    }
  }

  /** Adding remainders and reducing again is reducing the sum. */
  lemma ModuloOfSum(a: nat, b: nat)
    ensures (a % UINT16_LIMIT + b % UINT16_LIMIT) % UINT16_LIMIT == (a + b) % UINT16_LIMIT
  {
    var qa, qb := a / UINT16_LIMIT, b / UINT16_LIMIT;
    assert a + b == (qa + qb) * UINT16_LIMIT + (a % UINT16_LIMIT + b % UINT16_LIMIT);
  }

  lemma {:induction false} TotalWidthAppend(a: seq<Token>, b: seq<Token>)
    ensures TotalWidth(a + b) == TotalWidth(a) + TotalWidth(b)
  {
    if |a| == 0 {
      assert a + b == b;
    } else {
      assert (a + b)[1..] == a[1..] + b;
      TotalWidthAppend(a[1..], b);
    }
  }

  // ---------------------------------------------------------------------
  // Measuring output

  function WrittenWidth(out: seq<Out>): nat
  {
    if |out| == 0 then 0
    else (if out[0].Write? then |out[0].text| else 0) + WrittenWidth(out[1..])
  }

  function NewlineCount(out: seq<Out>): nat
  {
    if |out| == 0 then 0 else (if out[0].Newline? then 1 else 0) + NewlineCount(out[1..])
  }

  /** Output that writes only blanks and line ends. */
  predicate IsBlank(out: seq<Out>)
  {
    forall i, j :: 0 <= i < |out| && out[i].Write? && 0 <= j < |out[i].text| ==> out[i].text[j] == ' '
  }

  lemma {:induction false} MeasureAppend(a: seq<Out>, b: seq<Out>)
    ensures WrittenWidth(a + b) == WrittenWidth(a) + WrittenWidth(b)
    ensures NewlineCount(a + b) == NewlineCount(a) + NewlineCount(b)
  {
    if |a| == 0 {
      assert a + b == b;
    } else {
      assert (a + b)[1..] == a[1..] + b;
      MeasureAppend(a[1..], b);
    }
  }

  // ---------------------------------------------------------------------
  // Finishing a line

  datatype Overdraw = Overdraw(out: seq<Out>, blocks: uint16)

  /** `newline_with_overdraw`, called right after `tokens` were written: ends
      the line, first padding it with blanks up to the width the previous
      frame wrote there, and returns the width of this line. */
  function NewlineWithOverdraw(tokens: seq<Token>, blocksInLastIteration: uint16): (r: Overdraw)
    ensures r.blocks == BlockCount(tokens)
    ensures IsBlank(r.out) && NewlineCount(r.out) == 1 && r.out[|r.out| - 1] == Newline
    ensures forall i :: 0 <= i < |r.out| - 1 ==> r.out[i].Write?
    ensures r.blocks + WrittenWidth(r.out) == Max(blocksInLastIteration, r.blocks)
  {
    var currentBlockCount := BlockCount(tokens);
    if blocksInLastIteration > currentBlockCount then
      var padding := Spaces(blocksInLastIteration - currentBlockCount);
      var out := [Write(padding), Newline];
      assert out[1..] == [Newline] && out[1..][1..] == [];
      assert NewlineCount(out) == NewlineCount([Newline]) == 1;
      assert WrittenWidth(out) == |padding| + WrittenWidth([Newline]);
      Overdraw(out, currentBlockCount)
    else
      assert [Newline][1..] == [];
      Overdraw([Newline], currentBlockCount)
  }

  /** A line as written: its tokens, then the line end with any overdraw. */
  function WriteLine(tokens: seq<Token>, blocksInLastIteration: uint16): (r: Overdraw)
    ensures NewlineCount(r.out) == 1 && r.blocks == BlockCount(tokens)
  {
    var finish := NewlineWithOverdraw(tokens, blocksInLastIteration);
    MeasureAppend([Write(Concat(tokens))], finish.out);
    Overdraw([Write(Concat(tokens))] + finish.out, finish.blocks)
  }

  /** A written line covers every cell the previous frame wrote on it, and no
      more than it needs: its width is the larger of the old and new widths,
      and it ends the line once. */
  lemma LineCoversPrevious(tokens: seq<Token>, blocksInLastIteration: uint16)
    requires TotalWidth(tokens) < UINT16_LIMIT
    ensures var r := WriteLine(tokens, blocksInLastIteration);
            && WrittenWidth(r.out) == Max(blocksInLastIteration, TotalWidth(tokens))
            && NewlineCount(r.out) == 1
            && r.blocks == TotalWidth(tokens)
  {
    var finish := NewlineWithOverdraw(tokens, blocksInLastIteration);
    BlockCountIsTotalWidth(tokens);
    MeasureAppend([Write(Concat(tokens))], finish.out);
  }

  // ---------------------------------------------------------------------
  // Progress bars

  /** The cycle the indeterminate bar is drawn from. */
  const CHARS: seq<char> := ['=', '=', '=', ' ', ' ', ' ']

  /** The cycle's characters at positions `start`, `start + 1`, and so on:
      `count` of them, or fewer when the positions would reach `usize::MAX`. */
  function Pattern(start: usize, count: nat): (s: string)
    ensures |s| == Min(count, USIZE_MAX - start)
    decreases count
  {
    if count == 0 || start == USIZE_MAX then [] else [CHARS[start % |CHARS|]] + Pattern(start + 1, count - 1)
  }

  function Reverse(s: string): (r: string)
    ensures |r| == |s|
    ensures forall i :: 0 <= i < |s| ==> r[i] == s[|s| - 1 - i]
  {
    seq(|s|, i requires 0 <= i < |s| => s[|s| - 1 - i])
  }

  /** The body of a bar whose total is unknown: the pattern from `step` on,
      reversed. */
  function IndeterminateBody(step: usize, blocksAvailable: nat): (body: string)
    ensures |body| == Min(blocksAvailable, USIZE_MAX - step)
  {
    Reverse(Pattern(step, blocksAvailable))
  }

  lemma {:induction false} PatternShape(start: usize, count: nat)
    ensures forall i :: 0 <= i < |Pattern(start, count)| ==> Pattern(start, count)[i] == CHARS[(start + i) % 6]
    decreases count
  {
    if count > 0 && start < USIZE_MAX {
      PatternShape(start + 1, count - 1);
    }
  }

  /** The indeterminate body has one cell per available block (fewer only when
      the step is within that many of `usize::MAX`), and reading from the right
      it repeats three '=' then three blanks starting at phase `step`. */
  lemma IndeterminateBodyShape(step: usize, blocksAvailable: nat)
    ensures var body := IndeterminateBody(step, blocksAvailable);
            forall i :: 0 <= i < |body| ==> body[i] == CHARS[(step + |body| - 1 - i) % 6]
  {
    PatternShape(step, blocksAvailable);
  }

  /** Advancing the step by one moves the indeterminate pattern one cell to the
      right: the animation of a bar with unknown total. */
  lemma IndeterminateBodyScrolls(step: usize, blocksAvailable: nat, i: nat)
    requires step + 1 + blocksAvailable <= USIZE_MAX
    requires i + 1 < blocksAvailable
    ensures IndeterminateBody(step + 1, blocksAvailable)[i + 1] == IndeterminateBody(step, blocksAvailable)[i]
  {
    IndeterminateBodyShape(step, blocksAvailable);
    IndeterminateBodyShape(step + 1, blocksAvailable);
  }

  /** A progress value of the tree: the current step, the total when known,
      and the unit's text. */
  datatype Progress = Progress(step: usize, doneAt: Option<usize>, unit: Option<string>)

  /** The filled part of a determinate bar of `blocks` cells: the fraction
      `step / doneAt` of it, rounded down and capped at the whole bar. */
  function FilledBlocks(blocks: nat, step: usize, doneAt: usize): (filled: nat)
    ensures filled <= blocks
  {
    if doneAt == 0 || step >= doneAt then blocks
    else
      ScaledBelow(blocks, step, doneAt);
      blocks * step / doneAt
  }

  lemma ScaledBelow(blocks: nat, step: nat, doneAt: nat)
    requires step < doneAt
    ensures 0 <= blocks * step / doneAt <= blocks
  {
    var x := blocks * step;
    assert 0 <= x <= blocks * doneAt by {
      MultiplyBelow(blocks, step, doneAt);
    }
    DivideBelow(x, blocks, doneAt);
  }

  lemma MultiplyBelow(a: nat, b: nat, c: nat)
    requires b <= c
    ensures 0 <= a * b <= a * c
  {
  }

  lemma DivideBelow(x: nat, a: nat, d: nat)
    requires 0 < d && x <= a * d
    ensures 0 <= x / d <= a
  {
    assert (x / d) * d <= x;
  }

  /** The body of a bar whose total is known: the filled part, the '>' tip,
      and blanks for the rest. */
  function DeterminateBody(blocks: nat, step: usize, doneAt: usize): (body: seq<Token>)
    ensures TotalWidth(body) == blocks + 1
  {
    var filled := FilledBlocks(blocks, step, doneAt);
    var body := [Repeat('=', filled), ">", Spaces(blocks - filled)];
    assert body[1..][1..][1..] == [];
    assert TotalWidth(body) == filled + TotalWidth(body[1..]);
    assert TotalWidth(body[1..]) == 1 + TotalWidth(body[1..][1..]);
    assert TotalWidth(body[1..][1..]) == blocks - filled + TotalWidth(body[1..][1..][1..]);
    body
  }

  /** `draw_progress_bar`: " [", the body, "]". */
  function DrawProgressBar(p: Progress, blocksAvailable: uint16): (bar: seq<Token>)
    ensures |bar| >= 3 && bar[0] == " [" && bar[|bar| - 1] == "]"
    ensures p.doneAt.Some? && blocksAvailable >= 4 ==> TotalWidth(bar) == blocksAvailable
    ensures p.doneAt.None? && blocksAvailable >= 3 && p.step + blocksAvailable <= USIZE_MAX ==>
              TotalWidth(bar) == blocksAvailable
    ensures p.doneAt.Some? ==>
              var blocks := SaturatingSub16(SaturatingSub16(blocksAvailable, 3), 1);
              && |bar| == 5
              && |bar[1]| == FilledBlocks(blocks, p.step, p.doneAt.value)
              && (forall i :: 0 <= i < |bar[1]| ==> bar[1][i] == '=')
              && bar[2] == ">"
              && |bar[1]| + |bar[3]| == blocks
              && (forall i :: 0 <= i < |bar[3]| ==> bar[3][i] == ' ')
    ensures p.doneAt.None? ==>
              var body := bar[1];
              && |bar| == 3
              && |body| == Min(SaturatingSub16(blocksAvailable, 3), USIZE_MAX - p.step)
              && forall i :: 0 <= i < |body| ==> body[i] == CHARS[(p.step + |body| - 1 - i) % 6]
  {
    var available := SaturatingSub16(blocksAvailable, 3);
    var body :=
      match p.doneAt
      case Some(doneAt) => DeterminateBody(SaturatingSub16(available, 1), p.step, doneAt)
      case None => [IndeterminateBody(p.step, available)];
    assert p.doneAt.None? ==> TotalWidth(body) == |body[0]| by {
      if p.doneAt.None? {
        assert body[1..] == [];
      }
    }
    IndeterminateBodyShape(p.step, available);
    var bar := [" ["] + body + ["]"];
    assert TotalWidth(bar) == 2 + TotalWidth(body) + 1 by {
      TotalWidthAppend([" ["], body);
      TotalWidthAppend([" ["] + body, ["]"]);
      assert [" ["][1..] == [] && ["]"][1..] == [];
    }
    bar
  }

  /** A tree entry as the line renderer sees it: its level (the depth in the
      tree), its name, and its progress if it has one. */
  datatype Entry = Entry(level: uint8, name: string, progress: Option<Progress>)

  /** "step" or "step / done_at". */
  function StepText(p: Progress): string
  {
    match p.doneAt
    case Some(doneAt) => Decimal(p.step) + " / " + Decimal(doneAt)
    case None => Decimal(p.step)
  }

  /** The numerals of "step" or "step / done_at" denote the progress's own
      counts. */
  lemma StepTextDenotes(p: Progress)
    ensures var step := Decimal(p.step);
            && |step| <= |StepText(p)| && StepText(p)[..|step|] == step && DigitsValue(step) == p.step
    ensures p.doneAt.None? ==> StepText(p) == Decimal(p.step)
    ensures p.doneAt.Some? ==>
              var n := |Decimal(p.step)|;
              && n + 3 < |StepText(p)|
              && StepText(p)[n..n + 3] == " / "
              && StepText(p)[n + 3..] == Decimal(p.doneAt.value)
              && DigitsValue(Decimal(p.doneAt.value)) == p.doneAt.value
  {
    var step := Decimal(p.step);
    DecimalDenotes(p.step);
    if p.doneAt.Some? {
      var done := Decimal(p.doneAt.value);
      DecimalDenotes(p.doneAt.value);
      assert StepText(p) == step + " / " + done;
      assert (step + " / " + done)[..|step|] == step;
      assert (step + " / " + done)[|step|..|step| + 3] == " / ";
      assert (step + " / " + done)[|step| + 3..] == done;
    }
  }

  /** The tokens of a progress line before its bar: indentation, name, and for
      an entry with progress its step text and unit. */
  function Header(e: Entry): (tokens: seq<Token>)
    ensures |tokens| >= 2 && tokens[0] == Spaces(e.level) && tokens[1] == e.name
    ensures e.progress.None? ==> |tokens| == 2
    ensures e.progress.Some? ==>
              var p := e.progress.value;
              tokens[2..] == [" ", StepText(p)] + (match p.unit case Some(unit) => [" ", unit] case None => [])
  {
    [Spaces(e.level)] +
    match e.progress
    case None => [e.name]
    case Some(p) =>
      [e.name, " ", StepText(p)] + (match p.unit case Some(unit) => [" ", unit] case None => [])
  }

  /** `format_progress`: the line of one entry, indented by its level, with a
      bar in whatever room the header leaves on a line of `columnCount` cells. */
  function FormatProgress(e: Entry, columnCount: uint16): (line: seq<Token>)
    ensures |line| >= |Header(e)| && line[..|Header(e)|] == Header(e)
    ensures |line| > |Header(e)| <==> e.progress.Some? && BlockCount(Header(e)) < columnCount
    ensures |line| > |Header(e)| ==>
              line[|Header(e)|..] == DrawProgressBar(e.progress.value, SaturatingSub16(columnCount, BlockCount(Header(e))))
  {
    match e.progress
    case None => Header(e)
    case Some(p) =>
      var header := Header(e);
      var blocksLeft := SaturatingSub16(columnCount, BlockCount(header));
      if blocksLeft > 0 then
        assert (header + DrawProgressBar(p, blocksLeft))[..|header|] == header;
        header + DrawProgressBar(p, blocksLeft)
      else header
  }

  /** Every progress line starts with exactly `level` blanks followed by the
      entry's name. */
  lemma FormatProgressIndents(e: Entry, columnCount: uint16)
    ensures var line := FormatProgress(e, columnCount);
            line[0] == Spaces(e.level) && line[1] == e.name
  {
    var line := FormatProgress(e, columnCount);
    assert line[0] == line[..|Header(e)|][0];
    assert line[1] == line[..|Header(e)|][1];
  }

  /** A line with progress and room for its bar fills the terminal width
      exactly: the bar takes every block the header leaves. */
  lemma FormatProgressFillsLine(e: Entry, columnCount: uint16)
    requires e.progress.Some?
    requires TotalWidth(Header(e)) + 4 <= columnCount
    requires e.progress.value.step + columnCount <= USIZE_MAX
    ensures TotalWidth(FormatProgress(e, columnCount)) == columnCount
  {
    var header := Header(e);
    BlockCountIsTotalWidth(header);
    var blocksLeft := SaturatingSub16(columnCount, BlockCount(header));
    TotalWidthAppend(header, DrawProgressBar(e.progress.value, blocksLeft));
  }
}
